=== FILE: README.md ===
# Fast-food order service: a Dafny model of the order core

This project models the order side of a fast-food ordering service. The service takes an
order request (an optional CPF and a list of product lines), prices it against the active
products and stores it with status Received. It then moves the order through the kitchen
pipeline Received → InPreparation → Ready → Completed. It lists orders by status and for the
kitchen monitor, and it asks the payments service to charge each new order.

There is one module per core source file:

- `OrderStatuses`: the status enum and its numeric codes.
- `Orders`: the order entity. This covers the `NextStatus` table, the request constructor with its total and validation, and `ChangeStatus`.
- `OrderItems`: the order line.
- `OrderResponses`: the response DTO and its two constructors.
- `OrderRepositories`: the repository's queries and its store.
- `OrderServices`: the domain service.
- `OrderManagers`: the application use cases.
- `Products`, `ImageProducts`, `ProductDtos`, `BaseDomains`: the product entities the order core depends on.
- `Common` and `Errors`: shared `Option`/`Result`/`Outcome` types and one constructor per exception the core throws.

How the source's behaviour is represented:

- A thrown exception becomes a `Failure`/`Fail` value carrying the matching `Error`. Wrapping in `ApplicationException` becomes `Wrap(cause)`, an `Application` error that keeps the cause (see Findings).
- Each object whose fields the source updates in place is a class:
  - `Order`: status and dates.
  - `Product`: fields and image list.
  - `ImageProduct`.
  - `OrderRepository`: the table of orders and the next identity value.
  - `OrderManager`: the logs of product lookups and payment requests.
- Values that are only built and read are datatypes.

Values the program takes from its environment are parameters:

- Whether the database answers a call: every repository method, and every service or manager method that reaches the database, takes one flag per database call. A call the database does not answer fails with `Persistence`.
- The clock readings (`Time`, in ticks; `0` is the default `DateTimeOffset`).
- The random order number.
- `Uri.IsWellFormedUriString`.
- The CPF sanitizer and validator (`CpfRules`).
- The products service (`activeProducts`).

Money is `real`, since `decimal` arithmetic on prices and quantities is exact at these sizes.
Product ids are text throughout.

Some behaviours of the code worth knowing, which the model keeps:

- The ids sent to the products service are not deduplicated.
- The payment service's answer is ignored.
- The monitor query pages before it sorts.
- The request constructor does not reject lines whose product is unknown; they add nothing to the total.

## Model

| member | source | states |
|---|---|---|
| Errors.WrapAsWrittenLosesCause | src/Core/Application/ApplicationException.cs:6-8 | as declared, the application exception drops what it wraps: every cause gives the same exception, with no inner exception |
| Errors.WrapKeepsCause | src/Core/Application/ApplicationException.cs:6-8 | the intended wrapping keeps the cause as the inner exception, so different causes give different exceptions |
| OrderStatuses.Code | src/Core/Domain/Order/ValueObjects/OrderStatus.cs:5-9 | each status's code is its position in the enum's declaration order |
| OrderStatuses.FromCode | src/Core/Domain/Order/ValueObjects/OrderStatus.cs:5-9 | a code names a status exactly when it lies in 0..4, and then it names the status with that code |
| OrderStatuses.ExactlyFiveStatuses | src/Core/Domain/Order/ValueObjects/OrderStatus.cs:3-10 | there are exactly five statuses and distinct statuses have distinct codes |
| OrderStatuses.CodeRoundTrip | src/Core/Domain/Order/ValueObjects/OrderStatus.cs:5-9 | reading back a status's code gives the status |
| OrderStatuses.PipelineFollowsCodes | src/Core/Domain/Order/ValueObjects/OrderStatus.cs:5-8 | the kitchen pipeline lists the statuses in code order 0..3, and Canceled (code 4) is not in it |
| BaseDomains.NewBaseDomain | src/Core/Domain/BaseDomain.cs:10-20 | the id is set only when nonzero and each date only when given; everything else keeps its default, and the entity starts inactive |
| BaseDomains.IdIsAlwaysTheArgument | src/Core/Domain/BaseDomain.cs:10-13 | the resulting id always equals the argument, since skipping 0 leaves the default 0; with no arguments all fields are defaults |
| ProductDtos.AllWhiteSpace | src/Core/Domain/Products/Dtos/ProductDto.cs:44 | true exactly when every character of the text is white space |
| ProductDtos.IsNullOrWhiteSpace | src/Core/Domain/Products/Dtos/ProductDto.cs:44 | true exactly when the text is null or each of its characters is white space |
| ProductDtos.NewProductDto | src/Core/Domain/Products/Dtos/ProductDto.cs:42-52 | the id is kept exactly when it contains a non-white-space character; every other field is copied |
| ProductDtos.NewProductDtoFromJson | src/Core/Domain/Products/Dtos/ProductDto.cs:54-62 | the JSON constructor leaves the id null and copies the other fields |
| ProductDtos.EmptyProductDto | src/Core/Domain/Products/Dtos/ProductDto.cs:64-66 | the parameterless constructor leaves every field at its default |
| ProductDtos.JsonConstructorIsBlankId | src/Core/Domain/Products/Dtos/ProductDto.cs:42-62 | the JSON constructor is the six-argument constructor called with a blank id |
| ProductDtos.NoPriceCheck | src/Core/Domain/Products/Dtos/ProductDto.cs:42-62 | neither constructor rejects a price of zero or below; the price is kept as given |
| ImageProducts.HasImageMarkerDecidesPattern | src/Core/Domain/Products/Entities/ImageProduct.cs:16 | the scanner accepts a URL exactly when some non-word character in it is directly followed by jpg, jpeg, png, gif or webp, which is where the image pattern matches |
| ImageProducts.CheckImage | src/Core/Domain/Products/Entities/ImageProduct.cs:42-55 | an image passes exactly when its URL is well formed, matches the pattern and its position is positive; failures are reported in that order of priority |
| ImageProducts.JpgUrlMatches | src/Core/Domain/Products/Entities/ImageProduct.cs:16 | `http://example.com/image.jpg` matches the image pattern |
| ImageProducts.PlainUrlDoesNotMatch | src/Core/Domain/Products/Entities/ImageProduct.cs:16 | a URL `scheme://host.domain/file.ext` does not match the image pattern when the scheme is a run of word characters and host, domain, file and extension are runs of word characters none of which begins with j, p, g or w |
| ImageProducts.TxtFileDoesNotMatch | src/Core/Domain/Products/Entities/ImageProduct.cs:16 | the text-file URL of the unit tests, `http://example.com/file.txt`, does not match the image pattern |
| ImageProducts.UpperCaseExtensionDoesNotMatch | src/Core/Domain/Products/Entities/ImageProduct.cs:16 | the pattern is case-sensitive: `.JPG` does not match |
| ImageProducts.ImageProduct.constructor | src/Core/Domain/Products/Entities/ImageProduct.cs:18-25 | the object holds the given id, product id, position and URL |
| ImageProducts.ImageProduct.UpdateImageProduct | src/Core/Domain/Products/Entities/ImageProduct.cs:35-40 | position and URL are copied from the other image and the update time is the current time; the id and product id are kept |
| ImageProducts.NewImageProduct | src/Core/Domain/Products/Entities/ImageProduct.cs:18-29 | construction fails exactly when the URL and position checks fail, with their error, and otherwise yields a new image holding the arguments |
| Products.CheckProductValue | src/Core/Domain/Products/Entities/Product.cs:80-84 | a price passes exactly when it is positive |
| Common.FirstIndex | src/Core/Domain/Products/Entities/Product.cs:72 | the position of the first element satisfying the condition, or -1 exactly when none does |
| Products.FindImageIndex | src/Core/Domain/Products/Entities/Product.cs:72 | the position of the first image with the id, or -1 exactly when no image has it |
| Products.Product.constructor | src/Core/Domain/Products/Entities/Product.cs:24-43 | the product holds every argument as given; the price check and the default for an absent image list are made by `Products.NewProduct` |
| Products.Product.UpdateProduct | src/Core/Domain/Products/Entities/Product.cs:50-60 | all five fields and the update time are assigned before the price check, so a rejected price is still stored; the check fails exactly when the price is not positive |
| Products.Product.AddImage | src/Core/Domain/Products/Entities/Product.cs:62-68 | adding fails exactly when five images are already held, and then nothing changes; otherwise the image is appended; a product with at most five images keeps at most five |
| Products.Product.ChangeImage | src/Core/Domain/Products/Entities/Product.cs:70-78 | the first image with the same id is replaced and nothing else changes; with no such image the list is unchanged |
| Products.NewProduct | src/Core/Domain/Products/Entities/Product.cs:24-43 | construction fails with the price error exactly when the price is not positive, and otherwise yields a new product holding the arguments, with each date the given one or the default when absent |
| OrderItems.NewOrderItem | src/Core/Domain/Order/Entities/OrderItem.cs:13-18 | the line holds the given order id, product id and quantity and no product |
| OrderItems.NewOrderItemWithProduct | src/Core/Domain/Order/Entities/OrderItem.cs:19-25 | the line holds the given ids, quantity and product |
| OrderItems.ConstructorsAgree | src/Core/Domain/Order/Entities/OrderItem.cs:13-25 | the two constructors differ only in the product reference |
| Orders.NextStatusTable | src/Core/Domain/Order/Entities/Order.cs:22-29 | the table covers every status, moves each pipeline status to the next one, stops at Completed and Canceled, and never leads to Canceled |
| Orders.Advance | src/Core/Domain/Order/Entities/Order.cs:75-89 | a status can advance exactly when it is neither Completed nor Canceled; it then moves to the status with the next code, and otherwise the error names the current status |
| Orders.AdvanceWalksThePipeline | src/Core/Domain/Order/Entities/Order.cs:22-29 | Received, InPreparation and Ready advance in turn to Completed; Completed and Canceled are refused |
| Orders.FirstProductWithId | src/Core/Domain/Order/Entities/Order.cs:54 | the first product whose id equals the line's product id, or none exactly when no product has it |
| Orders.LineAmount | src/Core/Domain/Order/Entities/Order.cs:54-55 | a line's amount is null exactly when no product has its id, and otherwise the first such product's price times the line's quantity |
| Orders.SingleLineTotal | src/Core/Domain/Order/Entities/Order.cs:52-56 | a single line totals its matched product's price times its quantity, or zero |
| Orders.Total | src/Core/Domain/Order/Entities/Order.cs:52-56 | with no lines the total is zero, and with no negative price or quantity it is never negative |
| Orders.TotalAppend | src/Core/Domain/Order/Entities/Order.cs:52-56 | the total of two lists of lines is the sum of their totals |
| Orders.TotalAddsLine | src/Core/Domain/Order/Entities/Order.cs:52-56 | adding a line adds its price times its quantity, or nothing when its product is unknown |
| Orders.UnmatchedItemsCostNothing | src/Core/Domain/Order/Entities/Order.cs:52-56 | lines whose products are all unknown total zero |
| Orders.UnmatchedLineExample | src/Core/Domain/Order/Entities/Order.cs:52-56 | with only product A at 10.00 known, two A and one unknown B cost 20.00 |
| Orders.SanitizedCpf | src/Core/Domain/Order/Entities/Order.cs:42 | the stored CPF is null exactly when the request's is, and otherwise the sanitized request CPF |
| Orders.CpfRejected | src/Core/Domain/Order/Entities/Order.cs:68 | the CPF check fails exactly when the stored, sanitized CPF is present and not valid |
| Orders.BuildItems | src/Core/Domain/Order/Entities/Order.cs:48-50 | one order line per request line, in order, with the same product id and quantity |
| Orders.NewOrder | src/Core/Domain/Order/Entities/Order.cs:36-73 | construction fails exactly when the sanitized CPF is invalid (checked first) or there are no lines. Otherwise the order is Received and unsaved, and it holds the drawn number (the one passed in), the sanitized CPF, the two clock readings, one line per request line and the priced total |
| Orders.EndToEndScenario | src/Core/Domain/Order/Entities/Order.cs:36-89 | two units at 20.00 give an order of 40.00 in Received; three changes of status complete it and a fourth is refused |
| Orders.Order.FromRecord | src/Core/Domain/Order/Entities/Order.cs:31-33 | a materialised order holds exactly the stored fields |
| Orders.Order.ChangeStatus | src/Core/Domain/Order/Entities/Order.cs:75-89 | the status advances as `Advance` says and the update time becomes now; when the status cannot advance, the order is unchanged |
| OrderResponses.ProjectItems | src/Core/Domain/Order/Dtos/OrderResponseDto.cs:33-37 | one response line per order line, in order, with its product id and quantity |
| OrderResponses.ProjectItemList | src/Core/Domain/Order/Dtos/OrderResponseDto.cs:50-54 | a null item list projects to the empty list |
| OrderResponses.FromOrder | src/Core/Domain/Order/Dtos/OrderResponseDto.cs:26-41 | every scalar field is copied from the order and the lines are projected one for one; null lines become an empty list |
| OrderResponses.FromFields | src/Core/Domain/Order/Dtos/OrderResponseDto.cs:43-58 | every field is taken from its argument and the lines are projected |
| OrderResponses.FromFieldsAgreesWithFromOrder | src/Core/Domain/Order/Dtos/OrderResponseDto.cs:26-58 | given an order's own fields, the two constructors build the same response |
| OrderResponses.ProjectBuiltItems | src/Core/Domain/Order/Dtos/OrderResponseDto.cs:33-37 | projecting the lines built from a request gives back the request's lines |
| OrderRepositories.Where | src/Adapters/Driven/Infra.Database.SqlServer/Order/Repository/OrderRepository.cs:20 | the filter keeps exactly the rows that satisfy the condition and no others |
| OrderRepositories.WithStatus | src/Adapters/Driven/Infra.Database.SqlServer/Order/Repository/OrderRepository.cs:20 | the filter keeps every stored order with the status and only stored orders with it |
| OrderRepositories.Monitored | src/Adapters/Driven/Infra.Database.SqlServer/Order/Repository/OrderRepository.cs:34 | the filter keeps every stored order that is neither Completed nor Canceled and only such stored orders |
| OrderRepositories.Page | src/Adapters/Driven/Infra.Database.SqlServer/Order/Repository/OrderRepository.cs:21-22 | a page is never longer than its source nor than `take` (empty when `take` ≤ 0), and skipping nothing while taking everything gives the source back |
| OrderRepositories.PageIsSlice | src/Adapters/Driven/Infra.Database.SqlServer/Order/Repository/OrderRepository.cs:21-22 | skip/take is the slice starting `skip` rows in (a negative skip counts as 0) with at most `take` rows (none when `take` ≤ 0) |
| OrderRepositories.PageElements | src/Adapters/Driven/Infra.Database.SqlServer/Order/Repository/OrderRepository.cs:21-22 | a page is a sub-multiset of the rows it was cut from |
| OrderRepositories.Priority | src/Adapters/Driven/Infra.Database.SqlServer/Order/Repository/OrderRepository.cs:39-41 | Completed and Canceled, and only they, share the lowest priority |
| OrderRepositories.KitchenOrder | src/Adapters/Driven/Infra.Database.SqlServer/Order/Repository/OrderRepository.cs:39-42 | the three descending flag keys and the ascending date put Ready first, then InPreparation, then Received, oldest first within each |
| OrderRepositories.KitchenOrderIsTotalPreorder | src/Adapters/Driven/Infra.Database.SqlServer/Order/Repository/OrderRepository.cs:39-42 | the sort key compares every pair and is transitive |
| OrderRepositories.InsertForKitchen | src/Adapters/Driven/Infra.Database.SqlServer/Order/Repository/OrderRepository.cs:39-42 | insertion adds exactly the one element |
| OrderRepositories.SortForKitchen | src/Adapters/Driven/Infra.Database.SqlServer/Order/Repository/OrderRepository.cs:39-42 | the sort is a permutation of its input |
| OrderRepositories.InsertKeepsSorted | src/Adapters/Driven/Infra.Database.SqlServer/Order/Repository/OrderRepository.cs:39-42 | insertion into a kitchen-ordered list keeps it kitchen-ordered |
| OrderRepositories.SortIsSorted | src/Adapters/Driven/Infra.Database.SqlServer/Order/Repository/OrderRepository.cs:39-42 | the sort's output is in kitchen order |
| OrderRepositories.StatusQuery | src/Adapters/Driven/Infra.Database.SqlServer/Order/Repository/OrderRepository.cs:19-25 | every order listed is stored and has the requested status, and at most `take` are listed |
| OrderRepositories.MonitorQuery | src/Adapters/Driven/Infra.Database.SqlServer/Order/Repository/OrderRepository.cs:33-44 | every order listed is stored and neither Completed nor Canceled, at most `take` are listed, they are a permutation of the filtered page, and they are in kitchen order |
| OrderRepositories.StatusQueryProperties | src/Adapters/Driven/Infra.Database.SqlServer/Order/Repository/OrderRepository.cs:16-28 | every order listed has the requested status and is stored, at most `take` are listed, and they form one slice of the stored orders with that status |
| OrderRepositories.MonitorQueryProperties | src/Adapters/Driven/Infra.Database.SqlServer/Order/Repository/OrderRepository.cs:30-47 | the monitor never lists a Completed or Canceled order and lists at most `take` orders, exactly those of its page, by priority and then by age |
| OrderRepositories.IndexOfId | src/Adapters/Driven/Infra.Database.SqlServer/Order/Repository/OrderRepository.cs:60-62 | the position of the first stored order with the id, or -1 exactly when none has it |
| OrderRepositories.FindById | src/Adapters/Driven/Infra.Database.SqlServer/Order/Repository/OrderRepository.cs:58-63 | a stored order with the id, or null exactly when none has it |
| OrderRepositories.OrderRepository.constructor | src/Adapters/Driven/Infra.Database.SqlServer/Order/Repository/OrderRepository.cs:11-14 | a new repository is empty and hands out id 1 first |
| OrderRepositories.OrderRepository.GetAll | src/Adapters/Driven/Infra.Database.SqlServer/Order/Repository/OrderRepository.cs:16-28 | the status page, whose orders all have the status, at most `take` of them; a database failure is reported |
| OrderRepositories.OrderRepository.GetOrdersToMonitor | src/Adapters/Driven/Infra.Database.SqlServer/Order/Repository/OrderRepository.cs:30-47 | the kitchen page, with no Completed or Canceled order; a database failure is reported |
| OrderRepositories.OrderRepository.GetById | src/Adapters/Driven/Infra.Database.SqlServer/Order/Repository/OrderRepository.cs:58-63 | the stored order with the id, or null; a database failure is reported |
| OrderRepositories.OrderRepository.Create | src/Adapters/Driven/Infra.Database.SqlServer/Order/Repository/OrderRepository.cs:49-56 | the caller's order object receives a fresh id, which no stored order has, and is appended to the store and returned; ids stay unique and increasing |
| OrderRepositories.OrderRepository.Update | src/Adapters/Driven/Infra.Database.SqlServer/Order/Repository/OrderRepository.cs:65-72 | the stored order with the same id is replaced and every other row is kept; the update fails, changing nothing, when no row has that id |
| OrderServices.OrderService.constructor | src/Core/Domain/Order/Services/OrderService.cs:8 | the service uses the given repository |
| OrderServices.OrderService.ValidateById | src/Core/Domain/Order/Services/OrderService.cs:10-14 | the stored order with the id, and a domain error exactly when no stored order has it; an unanswered lookup passes its failure on |
| OrderServices.OrderService.Confirm | src/Core/Domain/Order/Services/OrderService.cs:16-24 | only a Received order is confirmed; it moves to InPreparation and a save is attempted, which succeeds exactly when the database answers and stores the order. Any other status is a domain error and nothing is saved or changed |
| OrderManagers.NatToDecimal | src/Core/Application/Order/OrderManager.cs:107 | the decimal text of a number is a non-empty run of digits with no leading zero |
| OrderManagers.NatToDecimalRoundTrip | src/Core/Application/Order/OrderManager.cs:107 | reading the digits back gives the number |
| OrderManagers.IntToDecimal | src/Core/Application/Order/OrderManager.cs:107 | the payment's order id text starts with a minus sign exactly when the id is negative, and parsing it gives back the id |
| OrderManagers.IntToDecimalInjective | src/Core/Application/Order/OrderManager.cs:107 | different orders never share a payment reference |
| OrderManagers.ProductIds | src/Core/Application/Order/OrderManager.cs:86 | the ids looked up are the request's product ids, one per line, in order |
| OrderManagers.ProjectMonitoredOrders | src/Core/Application/Order/OrderManager.cs:58-76 | a null list stays null; otherwise every order is projected one for one, and projecting fails exactly when some order's line list is null |
| OrderManagers.OrderManager.constructor | src/Core/Application/Order/OrderManager.cs:20-26 | the manager uses the given repository and products service, and has sent no lookups or payments |
| OrderManagers.OrderManager.GetAll | src/Core/Application/Order/OrderManager.cs:29-49 | one response per order of the status page, in order, all with the requested status and at most `take`; failures are wrapped |
| OrderManagers.OrderManager.GetOrdersToMonitor | src/Core/Application/Order/OrderManager.cs:51-82 | one response per order of the kitchen page, in order, none Completed or Canceled; a null line list or a database failure is wrapped |
| OrderManagers.OrderManager.GetById | src/Core/Application/Order/OrderManager.cs:139-156 | the response for the stored order with the id, or null exactly when none has it; failures are wrapped |
| OrderManagers.OrderManager.UpdateStatus | src/Core/Application/Order/OrderManager.cs:115-137 | a missing order is reported unwrapped and nothing is saved. A stored order advances one status, is saved in place and is returned; a refused change is wrapped and nothing is saved; an unanswered lookup or save is wrapped and leaves the store as it was |
| OrderManagers.OrderManager.CreateAsWritten | src/Core/Application/Order/OrderManager.cs:84-89 | as written, every request with lines fails with not-implemented after the lookup |
| OrderManagers.OrderManager.Create | src/Core/Application/Order/OrderManager.cs:84-113 | a null line list fails before any lookup. Otherwise the built order is stored under a fresh id, and the response is that order's projection, echoing the request's lines. One payment is requested, for the order's id and total. An unanswered insert fails unwrapped and requests no payment |

## Left out

- Persistence internals: Entity Framework change tracking, `Include` loading and `AsNoTracking` are not modelled. Neither is the fix-up that gives stored lines their order's id, so stored lines keep order id 0.
- Async and cancellation: every `async`, `await` and `CancellationToken` is left out. Calls are sequential.
- CPF rules: the internals of `SanitizeCpf` and `IsValidCpf` are parameters, so the model holds for any sanitizer and validator.
- `Uri.IsWellFormedUriString` is a parameter.
- `\W` in the image pattern is read over ASCII word characters only. .NET's Unicode letter and digit classes are not modelled.
- The image pattern's 100 ms match timeout is not modelled, nor the `RegexMatchTimeoutException` it can raise: the pattern cannot backtrack catastrophically, so only very long URLs could reach it.
- `ProductType` is carried as its integer code.
- `BaseDomain<string>`, the generic base of `Product`, is not part of this model. The product's string id is held directly.
- `OrderItem.ProductId` is declared `int` while request and product ids are strings. The model uses one text id type throughout.
- The products and payments services cannot fail in the model: lookups are a total function and payments are a log.
- `decimal` overflow and rounding are not modelled (money is `real`).
- The random order number: `Random.Next` is a parameter constrained to its range 100000..999999.
- The clock: `DateTime.Now` readings are parameters.
- `OrderRepositories.OrderRepository.Update`: EF would insert an order whose id is 0 and raise a concurrency error for an unknown nonzero id. The model treats both as a failed update that changes nothing.
- Paging: `Skip`/`Take` are read with in-memory LINQ semantics over the store's insertion order: a negative skip counts as 0 and a take of 0 or less gives an empty page. The SQL Server translation pages without an `ORDER BY`, so which rows land in a page is not fixed there, and the database may reject a negative offset or an empty fetch; neither is modelled.
- `OrderRepositories.Where` states which rows are kept but not that the store's order is preserved.
- `OrderRepositories.SortForKitchen` is stable by construction, as LINQ's ordering is, but stability is not stated as a contract.
- `OrderManagers.ProjectMonitoredOrders`: the null branch cannot be reached from `GetOrdersToMonitor`, because the repository never returns a null list. It is kept for the port's contract.
- `Orders.Order.ChangeStatus`: the model's `OrderStatus` admits only the declared codes 0..4, and the table covers all of them, so the `ChangeStatusInvalid` branch is never taken in the model. In the source the status is an open enum stored as a plain integer, so a stored row with any other code is materialised as that value, misses the table and reaches `ChangeStatusInvalid`; such rows are not represented.
- `Products.Product.constructor` and `Products.NewProduct` do not enforce the five-image cap on the initial list. The source does not either; only `AddImage` checks it.
- `BaseEntity`, the base class of `Order` and `ImageProduct`, is not part of this model. Its defaults are assumed: id 0, inactive, and default dates unless a constructor sets them.
- `Products.Product.AddImage` and `Products.Product.ChangeImage` change the product's own image list. The source stores the caller's list as is, so the caller's list changes with it; that aliasing is not modelled, because the list is a sequence value.
- Messages: the texts given to `DomainException` and `ApplicationException` are not modelled; only the kind of error and the wrapped cause are.
- `OrderManagers.OrderManager.CreateAsWritten` does not build the `Product` entities the lookup returns, because the overload that receives them throws before reading them.

## Findings

| source | as written | input that shows it | evidently intended | confidence | as-written member | corrected member |
|---|---|---|---|---|---|---|
| src/Core/Application/Order/OrderManager.cs:86-89 | the products service returns `Product` entities, so `new Order(orderDto, activeProducts)` binds to the overload at src/Core/Domain/Order/Entities/Order.cs:61-64, which always throws `NotImplementedException` | any request with at least one line, e.g. no CPF and one line of two units of product P1 | build the order from the looked-up products' prices, as the `ProductDto` overload at src/Core/Domain/Order/Entities/Order.cs:36-59 does | not executed | OrderManagers.OrderManager.CreateAsWritten | OrderManagers.OrderManager.Create |
| src/Core/Application/ApplicationException.cs:6-8 | the primary constructor's parameters are never used and the base `Exception()` is called, so the message and the caught exception are dropped | `GetAllAsync` with an unreachable database: the thrown exception has no inner exception, as it has for a refused status change | pass both on, `: Exception(errorRetrievingOrders, exception)`, so the cause stays readable | not executed | Errors.WrapAsWrittenLosesCause | Errors.WrapKeepsCause |

=== FILE: base_domain.dfy ===
/** The identity and audit fields every entity carries (src/Core/Domain/BaseDomain.cs). */
module BaseDomains {
  import opened Common

  datatype BaseDomain = BaseDomain(id: int, createdAt: Time, updatedAt: Time, isActive: bool)

  /** The fields before the constructor body runs: every one at its type's default. */
  const Defaults: BaseDomain := BaseDomain(0, DefaultTime, DefaultTime, false)

  /** The constructor: the id is assigned only when it is nonzero and each date only when
      it is given; IsActive is never assigned. */
  function NewBaseDomain(id: int, createdAt: Option<Time>, updatedAt: Option<Time>): (b: BaseDomain)
    ensures id != 0 ==> b.id == id
    ensures id == 0 ==> b.id == Defaults.id
    ensures createdAt.Some? ==> b.createdAt == createdAt.value
    ensures createdAt.None? ==> b.createdAt == Defaults.createdAt
    ensures updatedAt.Some? ==> b.updatedAt == updatedAt.value
    ensures updatedAt.None? ==> b.updatedAt == Defaults.updatedAt
    ensures b.isActive == Defaults.isActive == false
  {
    var withId := if id != 0 then Defaults.(id := id) else Defaults;
    var withCreated := if createdAt.Some? then withId.(createdAt := createdAt.value) else withId;
    if updatedAt.Some? then withCreated.(updatedAt := updatedAt.value) else withCreated
  }

  /** Because the default id is 0, the conditional assignment always leaves Id equal to the
      argument, and a constructor called with no arguments gives the defaults. */
  lemma IdIsAlwaysTheArgument(id: int, createdAt: Option<Time>, updatedAt: Option<Time>)
    ensures NewBaseDomain(id, createdAt, updatedAt).id == id
    ensures NewBaseDomain(0, None, None) == Defaults
  {
  }
}

=== FILE: common.dfy ===
/** Value types shared by every part of the order service model. */
module Common {

  /** A value that may be absent: the source's `null`. */
  datatype Option<+T> = None | Some(value: T)

  /** The result of an operation that may throw: the thrown exception becomes `Failure`. */
  datatype Result<+R, +E> = Success(value: R) | Failure(error: E)

  /** The outcome of a `void` operation that may throw. */
  datatype Outcome<+E> = Pass | Fail(error: E)

  /** A `DateTimeOffset`, as a count of ticks; `default(DateTimeOffset)` is tick 0. */
  type Time = int

  const DefaultTime: Time := 0

  /** Product ids are `int` in some source files and `string` in others; the model uses
      strings throughout, because `ProductDto` inspects its id as a string. */
  type ProductId = string

  /** `List.FindIndex(p)`: the first position whose element satisfies `p`, or -1 when there
      is none. */
  function FirstIndex<T>(s: seq<T>, p: T -> bool): (k: int)
    ensures -1 <= k < |s|
    ensures k == -1 <==> forall i :: 0 <= i < |s| ==> !p(s[i])
    ensures k != -1 ==> p(s[k]) && forall i :: 0 <= i < k ==> !p(s[i])
  {
    if |s| == 0 then -1
    else if p(s[0]) then 0
    else
      var k := FirstIndex(s[1..], p);
      if k == -1 then -1 else k + 1
  }
}

=== FILE: errors.dfy ===
/** One constructor per exception class the core throws, plus the framework faults it meets. */
module Errors {
  import opened Common
  import opened OrderStatuses

  datatype Error =
    | InvalidCpf                                 // InvalidCpfException
    | EmptyOrderItems                            // EmptyOrderItemsException
    | ChangeStatusNotAllowed(status: OrderStatus) // ChangeStatusNotAllowed(status)
    | ChangeStatusInvalid                        // ChangeStatusInvalidException
    | OrderNotFound(orderId: int)                // OrderNotFoundException(orderId)
    | ProductInvalidPrice                        // ProductInvalidPriceException
    | ProductMaxImage                            // ProductMaxImageException
    | UrlNotValid                                // UrlNotValidException
    | UrlIsNotAnImage                            // UrlIsNotAnImageException
    | ImagePosition                              // ImagePositionException
    | Domain                                     // DomainException with a message
    | Application(inner: Option<Error>)          // ApplicationException and its InnerException
    | NotImplemented                             // NotImplementedException
    | ArgumentNull                               // ArgumentNullException from a LINQ operator
    | Persistence                                // the database could not be reached or refused a write

  /** `new ApplicationException(message, ex)` as declared: the primary constructor's
      parameters are never handed to `Exception`, so the thrown exception carries no inner
      exception. */
  function WrapAsWritten(cause: Error): Error
  {
    Application(None)
  }

  /** The wrapping the catch blocks evidently intend: the caught exception becomes the inner
      exception. */
  function Wrap(cause: Error): Error
  {
    Application(Some(cause))
  }

  /** As declared, every cause is wrapped into the same exception, so no caller can tell a
      database failure from a refused status change. */
  lemma WrapAsWrittenLosesCause(a: Error, b: Error)
    ensures WrapAsWritten(a) == WrapAsWritten(b)
    ensures WrapAsWritten(a).Application? && WrapAsWritten(a).inner.None?
  {
  }

  /** The intended wrapping keeps the cause: it can be read back, and different causes give
      different exceptions. */
  lemma WrapKeepsCause(a: Error, b: Error)
    ensures Wrap(a).Application? && Wrap(a).inner == Some(a)
    ensures Wrap(a) == Wrap(b) ==> a == b
  {
  }
}

=== FILE: image_product.dfy ===
/** A product image and its validation (src/Core/Domain/Products/Entities/ImageProduct.cs). */
module ImageProducts {
  import opened Common
  import opened Errors

  /** The regular-expression class `\w` over ASCII: letters, digits and underscore. */
  predicate IsWordChar(c: char) {
    ('a' <= c <= 'z') || ('A' <= c <= 'Z') || ('0' <= c <= '9') || c == '_'
  }

  /** One of the five alternatives `jpg|jpeg|png|gif|webp` begins `s` (case-sensitive). */
  predicate StartsWithImageExtension(s: string) {
    "jpg" <= s || "jpeg" <= s || "png" <= s || "gif" <= s || "webp" <= s
  }

  /** The pattern `(\W)(jpg|jpeg|png|gif|webp)` matches starting at position i. */
  ghost predicate MatchesAt(s: string, i: int) {
    0 <= i < |s| && !IsWordChar(s[i]) && StartsWithImageExtension(s[i + 1..])
  }

  /** `Regex.IsMatch` for that pattern: unanchored, so any position will do. */
  ghost predicate ImagePatternMatches(s: string) {
    exists i :: MatchesAt(s, i)
  }

  /** The left-to-right scan that decides the pattern. */
  function HasImageMarker(s: string): bool
  {
    if |s| == 0 then false
    else if !IsWordChar(s[0]) && StartsWithImageExtension(s[1..]) then true
    else HasImageMarker(s[1..])
  }

  /** The scan accepts exactly the strings the pattern matches. */
  lemma {:induction false} HasImageMarkerDecidesPattern(s: string)
    ensures HasImageMarker(s) <==> ImagePatternMatches(s)
  {
    if |s| == 0 {
      assert !ImagePatternMatches(s);
    } else if !IsWordChar(s[0]) && StartsWithImageExtension(s[1..]) {
      assert MatchesAt(s, 0);
    } else {
      HasImageMarkerDecidesPattern(s[1..]);
      if ImagePatternMatches(s) {
        var i :| MatchesAt(s, i);
        assert i != 0;
        assert s[1..][i - 1] == s[i] && s[1..][i..] == s[i + 1..];
        assert MatchesAt(s[1..], i - 1);
      }
      if ImagePatternMatches(s[1..]) {
        var j :| MatchesAt(s[1..], j);
        assert s[1..][j + 1..] == s[j + 2..];
        assert MatchesAt(s, j + 1);
      }
    }
  }

  /** The constructor's two URL checks and its position check, in that order:
      `Uri.IsWellFormedUriString(url, UriKind.Absolute)` is the parameter `wellFormed`. */
  function CheckImage(url: string, position: int, wellFormed: string -> bool): (r: Outcome<Error>)
    ensures r.Pass? <==> wellFormed(url) && ImagePatternMatches(url) && position > 0
    ensures !wellFormed(url) ==> r == Fail(UrlNotValid)
    ensures wellFormed(url) && !ImagePatternMatches(url) ==> r == Fail(UrlIsNotAnImage)
    ensures wellFormed(url) && ImagePatternMatches(url) && position <= 0 ==> r == Fail(ImagePosition)
  {
    HasImageMarkerDecidesPattern(url);
    if !wellFormed(url) then Fail(UrlNotValid)
    else if !HasImageMarker(url) then Fail(UrlIsNotAnImage)
    else if position <= 0 then Fail(ImagePosition)
    else Pass
  }

  /** The URL the unit tests accept: the dot before "jpg" is the non-word character. */
  lemma JpgUrlMatches()
    ensures ImagePatternMatches("http://example.com/image.jpg")
  {
    var s := "http://example.com/image.jpg";
    assert s[25..] == "jpg";
    assert MatchesAt(s, 24);
  }

  /** A run of word characters never starts a match, so the scan passes over it. */
  lemma {:induction false} WordRunSkipped(a: string, b: string)
    requires forall i :: 0 <= i < |a| ==> IsWordChar(a[i])
    ensures HasImageMarker(a + b) == HasImageMarker(b)
  {
    if |a| > 0 {
      assert (a + b)[0] == a[0] && (a + b)[1..] == a[1..] + b;
      WordRunSkipped(a[1..], b);
    } else {
      assert a + b == b;
    }
  }

  /** A non-word character starts no match when what follows does not begin with j, p, g or
      w. */
  lemma NonWordSkipped(c: char, b: string)
    requires |b| > 0 ==> b[0] != 'j' && b[0] != 'p' && b[0] != 'g' && b[0] != 'w'
    ensures HasImageMarker([c] + b) == HasImageMarker(b)
  {
    assert ([c] + b)[1..] == b;
  }

  /** A run of word characters that does not begin with j, p, g or w. */
  predicate PlainWord(w: string) {
    && |w| > 0 && w[0] != 'j' && w[0] != 'p' && w[0] != 'g' && w[0] != 'w'
    && forall i :: 0 <= i < |w| ==> IsWordChar(w[i])
  }

  /** The URL `scheme://host.domain/file.ext`, assembled from the end as the scan meets it. */
  function FileUrl(scheme: string, host: string, domain: string, file: string, ext: string): string
  {
    scheme + ([':'] + (['/'] + (['/'] + (host + (['.'] + (domain + (['/'] + (file + (['.'] + ext)))))))))
  }

  /** A URL of the shape `scheme://host.domain/file.ext` is not an image when every word after
      the scheme is plain: the scan meets no separator followed by an image extension. */
  lemma {:induction false} PlainUrlDoesNotMatch(scheme: string, host: string, domain: string,
                                                file: string, ext: string)
    requires forall i :: 0 <= i < |scheme| ==> IsWordChar(scheme[i])
    requires PlainWord(host) && PlainWord(domain) && PlainWord(file) && PlainWord(ext)
    ensures !ImagePatternMatches(FileUrl(scheme, host, domain, file, ext))
  {
    var r := ext;
    WordRunSkipped(ext, []);
    assert ext + [] == ext;
    NonWordSkipped('.', r);
    r := ['.'] + r;
    WordRunSkipped(file, r);
    r := file + r;
    NonWordSkipped('/', r);
    r := ['/'] + r;
    WordRunSkipped(domain, r);
    r := domain + r;
    NonWordSkipped('.', r);
    r := ['.'] + r;
    WordRunSkipped(host, r);
    r := host + r;
    NonWordSkipped('/', r);
    r := ['/'] + r;
    NonWordSkipped('/', r);
    r := ['/'] + r;
    NonWordSkipped(':', r);
    r := [':'] + r;
    WordRunSkipped(scheme, r);
    r := scheme + r;
    HasImageMarkerDecidesPattern(r);
  }

  /** The text-file URL of the unit tests is not an image: no image extension follows any of
      its non-word characters. */
  lemma TxtFileDoesNotMatch()
    ensures !ImagePatternMatches("http://example.com/file.txt")
  {
    PlainUrlDoesNotMatch("http", "example", "com", "file", "txt");
    assert FileUrl("http", "example", "com", "file", "txt") == "http://example.com/file.txt";
  }

  /** The match is case-sensitive: an upper-case extension is not an image. */
  lemma UpperCaseExtensionDoesNotMatch()
    ensures !ImagePatternMatches("/a.JPG")
  {
    HasImageMarkerDecidesPattern("/a.JPG");
    assert !HasImageMarker("JPG");
    assert !HasImageMarker(".JPG");
  }

  class ImageProduct {
    const id: int
    const productId: int
    var position: int
    var url: string
    var updatedAt: Time

    /** The field assignments of the constructor; the checks are made by `NewImageProduct`.
        A zero id leaves Id at its default, which is zero as well. */
    constructor (productId: int, position: int, url: string, id: int)
      ensures this.id == id && this.productId == productId
      ensures this.position == position && this.url == url && updatedAt == DefaultTime
    {
      if id != 0 {
        this.id := id;
      } else {
        this.id := 0;
      }
      this.productId := productId;
      this.position := position;
      this.url := url;
      this.updatedAt := DefaultTime;
    }

    /** Copies Position and Url from the argument without validating them, and stamps the
        update time; Id and ProductId are kept. */
    method UpdateImageProduct(image: ImageProduct, now: Time)
      modifies this`position, this`url, this`updatedAt
      ensures position == old(image.position) && url == old(image.url) && updatedAt == now
    {
      var newPosition, newUrl := image.position, image.url;
      this.position := newPosition;
      this.url := newUrl;
      this.updatedAt := now;
    }
  }

  /** `new ImageProduct(productId, position, url, id)`: the object exists only when every
      check passes; otherwise the first failing check's exception is thrown. */
  method NewImageProduct(productId: int, position: int, url: string, id: int,
                         wellFormed: string -> bool) returns (r: Result<ImageProduct, Error>)
    ensures r.Failure? <==> CheckImage(url, position, wellFormed).Fail?
    ensures r.Failure? ==> r.error == CheckImage(url, position, wellFormed).error
    ensures r.Success? ==> fresh(r.value)
    ensures r.Success? ==> r.value.id == id && r.value.productId == productId
    ensures r.Success? ==> r.value.position == position && r.value.url == url
  {
    var check := CheckImage(url, position, wellFormed);
    if check.Fail? {
      return Failure(check.error);
    }
    var image := new ImageProduct(productId, position, url, id);
    return Success(image);
  }
}

=== FILE: order.dfy ===
/** The order aggregate: construction from a request and a price snapshot, and the status
    state machine (src/Core/Domain/Order/Entities/Order.cs). */
module Orders {
  import opened Common
  import opened Errors
  import opened OrderStatuses
  import opened OrderItems
  import opened ProductDtos

  /** A requested line, and the line echoed back in a response. */
  datatype OrderItemDto = OrderItemDto(productId: ProductId, quantity: int)

  /** `OrderRequestDto`: both the cpf and the item list may be null. */
  datatype OrderRequest = OrderRequest(cpf: Option<string>, items: Option<seq<OrderItemDto>>)

  /** The `SanitizeCpf` and `IsValidCpf` string extensions, whose bodies are not part of this
      model: an order is built against whatever pair of functions is given. */
  datatype CpfRules = CpfRules(sanitize: string -> string, isValid: string -> bool)

  /** The persisted fields of an order. `items` is null only for an order made by the
      parameterless constructor. */
  datatype OrderRecord = OrderRecord(
    id: int,
    orderNumber: int,
    cpf: Option<string>,
    total: real,
    status: OrderStatus,
    items: Option<seq<OrderItem>>,
    isActive: bool,
    createdAt: Time,
    updatedAt: Time)

  /** The id of an order the repository has not stored yet (the default of `int`). */
  const UnassignedId: int := 0

  /** `Random.Next(100000, 1000000)` excludes its upper bound. */
  const MinOrderNumber: int := 100000
  const MaxOrderNumber: int := 999999

  /** The static `NextStatus` dictionary: a null value means the change is not allowed. */
  const NextStatus: map<OrderStatus, Option<OrderStatus>> := map[
    Received := Some(InPreparation),
    InPreparation := Some(Ready),
    Ready := Some(Completed),
    Completed := None,
    Canceled := None]

  /** The table has an entry for every status, moves each pipeline status to the next one,
      stops at Completed and Canceled, and never leads to Canceled. */
  lemma NextStatusTable()
    ensures forall s :: s in NextStatus
    ensures forall i :: 0 <= i < |Pipeline| - 1 ==> NextStatus[Pipeline[i]] == Some(Pipeline[i + 1])
    ensures NextStatus[Completed] == None && NextStatus[Canceled] == None
    ensures forall s :: s in NextStatus ==> NextStatus[s] != Some(Canceled)
  {
    forall s: OrderStatus
      ensures s in NextStatus
    {
      match s
      case Received =>
      case InPreparation =>
      case Ready =>
      case Completed =>
      case Canceled =>
    }
  }

  /** The status `ChangeStatus` moves to, or the exception it throws. The table covers the
      five declared statuses, so for them the `ChangeStatusInvalid` branch is never taken. */
  function Advance(s: OrderStatus): (r: Result<OrderStatus, Error>)
    ensures r.Success? <==> s != Completed && s != Canceled
    ensures r.Success? ==> Code(r.value) == Code(s) + 1 && r.value in Pipeline
    ensures r.Failure? ==> r.error == ChangeStatusNotAllowed(s)
  {
    NextStatusTable();
    if s in NextStatus then
      match NextStatus[s]
      case None => Failure(ChangeStatusNotAllowed(s))
      case Some(next) => Success(next)
    else
      Failure(ChangeStatusInvalid)
  }

  /** Three advances take a new order to Completed, and a fourth is refused. */
  lemma AdvanceWalksThePipeline()
    ensures Advance(Received) == Success(InPreparation)
    ensures Advance(InPreparation) == Success(Ready)
    ensures Advance(Ready) == Success(Completed)
    ensures Advance(Completed) == Failure(ChangeStatusNotAllowed(Completed))
    ensures Advance(Canceled) == Failure(ChangeStatusNotAllowed(Canceled))
  {
  }

  /** `products.FirstOrDefault(p => p.Id == productId)`. */
  function FirstProductWithId(products: seq<ProductDto>, productId: ProductId): (r: Option<ProductDto>)
    ensures r.None? <==> forall k :: 0 <= k < |products| ==> products[k].id != Some(productId)
    ensures r.Some? ==> exists k :: 0 <= k < |products| && products[k] == r.value
                          && forall j :: 0 <= j < k ==> products[j].id != Some(productId)
    ensures r.Some? ==> r.value.id == Some(productId)
  {
    if |products| == 0 then None
    else if products[0].id == Some(productId) then Some(products[0])
    else
      var r := FirstProductWithId(products[1..], productId);
      assert r.Some? ==> exists k :: 1 <= k < |products| && products[k] == r.value
                          && forall j :: 0 <= j < k ==> products[j].id != Some(productId) by {
        if r.Some? {
          var k :| 0 <= k < |products[1..]| && products[1..][k] == r.value
                   && forall j :: 0 <= j < k ==> products[1..][j].id != Some(productId);
          assert products[k + 1] == r.value;
        }
      }
      r
  }

  /** `product?.Price * item.Quantity`: null when no product has the item's id. */
  function LineAmount(item: OrderItemDto, products: seq<ProductDto>): (r: Option<real>)
    ensures r.None? <==> forall k :: 0 <= k < |products| ==> products[k].id != Some(item.productId)
    ensures r.Some? ==> exists k :: 0 <= k < |products| && products[k].id == Some(item.productId)
                          && (forall j :: 0 <= j < k ==> products[j].id != Some(item.productId))
                          && r.value == products[k].price * item.quantity as real
  {
    match FirstProductWithId(products, item.productId)
    case None => None
    case Some(p) => Some(p.price * item.quantity as real)
  }

  /** `Sum` over the nullable line amounts, which skips the nulls. */
  function Total(items: seq<OrderItemDto>, products: seq<ProductDto>): (t: real)
    ensures ((forall k :: 0 <= k < |products| ==> products[k].price >= 0.0)
             && (forall i :: 0 <= i < |items| ==> items[i].quantity >= 0)) ==> t >= 0.0
    ensures |items| == 0 ==> t == 0.0
  {
    if |items| == 0 then 0.0
    else
      (match LineAmount(items[0], products) case None => 0.0 case Some(a) => a)
      + Total(items[1..], products)
  }

  /** The total of a concatenation is the sum of the totals: each line contributes on its own. */
  lemma {:induction false} TotalAppend(a: seq<OrderItemDto>, b: seq<OrderItemDto>, products: seq<ProductDto>)
    ensures Total(a + b, products) == Total(a, products) + Total(b, products)
  {
    if |a| == 0 {
      assert a + b == b;
    } else {
      assert (a + b)[0] == a[0] && (a + b)[1..] == a[1..] + b;
      TotalAppend(a[1..], b, products);
    }
  }

  /** A line whose product is missing from the snapshot adds nothing; a matched line adds the
      first matching product's price times the quantity. */
  lemma {:induction false} TotalAddsLine(items: seq<OrderItemDto>, item: OrderItemDto, products: seq<ProductDto>)
    ensures FirstProductWithId(products, item.productId).None? ==>
              Total(items + [item], products) == Total(items, products)
    ensures FirstProductWithId(products, item.productId).Some? ==>
              Total(items + [item], products)
              == Total(items, products) + FirstProductWithId(products, item.productId).value.price * item.quantity as real
  {
    TotalAppend(items, [item], products);
    SingleLineTotal(item, products);
  }

  /** A single line costs its matched product's price times its quantity, or nothing. */
  lemma SingleLineTotal(item: OrderItemDto, products: seq<ProductDto>)
    ensures Total([item], products)
            == match FirstProductWithId(products, item.productId)
               case None => 0.0
               case Some(p) => p.price * item.quantity as real
  {
    assert [item][1..] == [];
  }

  /** With no product matched, the total is zero whatever the quantities. */
  lemma {:induction false} UnmatchedItemsCostNothing(items: seq<OrderItemDto>, products: seq<ProductDto>)
    requires forall i :: 0 <= i < |items| ==> FirstProductWithId(products, items[i].productId).None?
    ensures Total(items, products) == 0.0
  {
    if |items| > 0 {
      UnmatchedItemsCostNothing(items[1..], products);
    }
  }

  /** The request's lines become order items one for one, in order, each pointing at the
      order's id as it stands. */
  function BuildItems(orderId: int, items: seq<OrderItemDto>): (r: seq<OrderItem>)
    ensures |r| == |items|
    ensures forall i :: 0 <= i < |items| ==> r[i] == NewOrderItem(orderId, items[i].productId, items[i].quantity)
  {
    if |items| == 0 then []
    else [NewOrderItem(orderId, items[0].productId, items[0].quantity)] + BuildItems(orderId, items[1..])
  }

  /** The request's lines, a null list read as no lines. */
  function RequestItems(request: OrderRequest): seq<OrderItemDto>
  {
    if request.items.Some? then request.items.value else []
  }

  /** The stored cpf: null stays null, anything else is sanitized. */
  function SanitizedCpf(request: OrderRequest, rules: CpfRules): (r: Option<string>)
    ensures r.None? <==> request.cpf.None?
    ensures r.Some? ==> r.value == rules.sanitize(request.cpf.value)
  {
    if request.cpf.None? then None else Some(rules.sanitize(request.cpf.value))
  }

  /** `ValidateOrder`'s first check fails. */
  predicate CpfRejected(request: OrderRequest, rules: CpfRules)
    ensures CpfRejected(request, rules) <==>
              SanitizedCpf(request, rules).Some? && !rules.isValid(SanitizedCpf(request, rules).value)
  {
    request.cpf.Some? && !rules.isValid(rules.sanitize(request.cpf.value))
  }

  /** The constructor `Order(OrderRequestDto, List<ProductDto>)`. `orderNumber` is the value
      drawn by `Random.Next(100000, 1000000)`; `createdAt` and `updatedAt` are the two
      separate readings of the clock. `ValidateOrder` checks the cpf before the items. */
  function NewOrder(request: OrderRequest, products: seq<ProductDto>, rules: CpfRules,
                    orderNumber: int, createdAt: Time, updatedAt: Time): (r: Result<OrderRecord, Error>)
    requires MinOrderNumber <= orderNumber <= MaxOrderNumber
    ensures r.Failure? <==> CpfRejected(request, rules) || |RequestItems(request)| == 0
    ensures CpfRejected(request, rules) ==> r == Failure(InvalidCpf)
    ensures !CpfRejected(request, rules) && |RequestItems(request)| == 0 ==> r == Failure(EmptyOrderItems)
    ensures r.Success? ==> r.value.status == Received && r.value.id == UnassignedId && !r.value.isActive
    ensures r.Success? ==> r.value.orderNumber == orderNumber
    ensures r.Success? ==> MinOrderNumber <= r.value.orderNumber <= MaxOrderNumber
    ensures r.Success? ==> r.value.cpf == SanitizedCpf(request, rules)
    ensures r.Success? ==> r.value.createdAt == createdAt && r.value.updatedAt == updatedAt
    ensures r.Success? ==> r.value.total == Total(RequestItems(request), products)
    ensures r.Success? ==> r.value.items.Some? && |r.value.items.value| == |RequestItems(request)|
    ensures r.Success? ==> forall i :: 0 <= i < |RequestItems(request)| ==>
              r.value.items.value[i].productId == RequestItems(request)[i].productId
              && r.value.items.value[i].quantity == RequestItems(request)[i].quantity
              && r.value.items.value[i].orderId == UnassignedId
              && r.value.items.value[i].product.None?
  {
    var cpf := if request.cpf.None? then request.cpf else Some(rules.sanitize(request.cpf.value));
    var items := if request.items.Some? then BuildItems(UnassignedId, request.items.value) else [];
    var total := if request.items.Some? then Total(request.items.value, products) else 0.0;
    if cpf.Some? && !rules.isValid(cpf.value) then
      Failure(InvalidCpf)
    else if |items| == 0 then
      Failure(EmptyOrderItems)
    else
      Success(OrderRecord(UnassignedId, orderNumber, cpf, total, Received, Some(items), false, createdAt, updatedAt))
  }

  /** The end-to-end example: two units of a product priced 20.00 cost 40.00, the order starts
      Received, three advances complete it and a fourth is refused. */
  lemma EndToEndScenario(rules: CpfRules, orderNumber: int, createdAt: Time, updatedAt: Time)
    requires MinOrderNumber <= orderNumber <= MaxOrderNumber
    ensures var r := NewOrder(OrderRequest(None, Some([OrderItemDto("P1", 2)])),
                              [NewProductDto("Burger", "", 0, 20.0, true, Some("P1"))],
                              rules, orderNumber, createdAt, updatedAt);
            && r.Success? && r.value.total == 40.0 && r.value.status == Received
            && Advance(r.value.status) == Success(InPreparation)
            && Advance(InPreparation) == Success(Ready)
            && Advance(Ready) == Success(Completed)
            && Advance(Completed).Failure?
  {
    var items := [OrderItemDto("P1", 2)];
    var products := [NewProductDto("Burger", "", 0, 20.0, true, Some("P1"))];
    assert products[0].id == Some("P1") by {
      assert !IsWhiteSpace("P1"[0]);
    }
    assert Total(items[1..], products) == 0.0;
  }

  /** An unmatched line is priced at zero: with only "A" (10.00) on offer, two "A" and one "B"
      cost 20.00. */
  lemma UnmatchedLineExample()
    ensures Total([OrderItemDto("A", 2), OrderItemDto("B", 1)],
                  [ProductDto(Some("A"), None, None, 0, 10.0, true)]) == 20.0
  {
    var products := [ProductDto(Some("A"), None, None, 0, 10.0, true)];
    TotalAppend([OrderItemDto("A", 2)], [OrderItemDto("B", 1)], products);
    assert [OrderItemDto("A", 2)][1..] == [] && [OrderItemDto("B", 1)][1..] == [];
    assert [OrderItemDto("A", 2), OrderItemDto("B", 1)] == [OrderItemDto("A", 2)] + [OrderItemDto("B", 1)];
  }

  class Order {
    var id: int
    const orderNumber: int
    const cpf: Option<string>
    const total: real
    var status: OrderStatus
    const items: Option<seq<OrderItem>>
    const isActive: bool
    const createdAt: Time
    var updatedAt: Time

    /** An order object holding the given fields, as the repository materialises it. */
    constructor FromRecord(record: OrderRecord)
      ensures Record() == record
    {
      id := record.id;
      orderNumber := record.orderNumber;
      cpf := record.cpf;
      total := record.total;
      status := record.status;
      items := record.items;
      isActive := record.isActive;
      createdAt := record.createdAt;
      updatedAt := record.updatedAt;
    }

    /** The order's current fields. */
    function Record(): OrderRecord
      reads this
    {
      OrderRecord(id, orderNumber, cpf, total, status, items, isActive, createdAt, updatedAt)
    }

    /** Looks the status up in `NextStatus`; on success only Status and UpdatedAt change, on
        failure nothing does. */
    method ChangeStatus(now: Time) returns (r: Outcome<Error>)
      modifies this`status, this`updatedAt
      ensures r.Pass? <==> Advance(old(status)).Success?
      ensures r.Pass? ==> Record() == old(Record()).(status := Advance(old(status)).value, updatedAt := now)
      ensures r.Fail? ==> r.error == Advance(old(status)).error && Record() == old(Record())
    {
      if status in NextStatus {
        var next := NextStatus[status];
        if next.None? {
          return Fail(ChangeStatusNotAllowed(status));
        }
        status := next.value;
        updatedAt := now;
        r := Pass;
      } else {
        r := Fail(ChangeStatusInvalid);
      }
    }
  }
}

=== FILE: order_item.dfy ===
/** A line of an order (src/Core/Domain/Order/Entities/OrderItem.cs). Every property has a
    protected setter and the class has no mutator, so an item is an immutable value. */
module OrderItems {
  import opened Common
  import opened Products

  datatype OrderItem = OrderItem(productId: ProductId, orderId: int, quantity: int, product: Option<Product>)

  /** The three-argument constructor, `(orderId, productId, quantity)`; Product stays null. */
  function NewOrderItem(orderId: int, productId: ProductId, quantity: int): (item: OrderItem)
    ensures item.orderId == orderId && item.productId == productId && item.quantity == quantity
    ensures item.product.None?
  {
    OrderItem(productId, orderId, quantity, None)
  }

  /** The four-argument constructor, `(productId, quantity, orderId, product)`. */
  function NewOrderItemWithProduct(productId: ProductId, quantity: int, orderId: int,
                                   product: Option<Product>): (item: OrderItem)
    ensures item.orderId == orderId && item.productId == productId && item.quantity == quantity
    ensures item.product == product
  {
    OrderItem(productId, orderId, quantity, product)
  }

  /** The two constructors take their arguments in different orders but agree on every field
      except Product. */
  lemma ConstructorsAgree(orderId: int, productId: ProductId, quantity: int, product: Option<Product>)
    ensures NewOrderItemWithProduct(productId, quantity, orderId, product)
         == NewOrderItem(orderId, productId, quantity).(product := product)
  {
  }
}

=== FILE: order_manager.dfy ===
/** The order use cases (src/Core/Application/Order/OrderManager.cs). The products service
    and the payments service are outside the model: the first is a function from product ids
    to the active products, and the second is the log of payment requests sent to it. */
module OrderManagers {
  import opened Common
  import opened Errors
  import opened OrderStatuses
  import opened ProductDtos
  import opened Orders
  import opened OrderResponses
  import opened OrderRepositories

  /** `CreatePaymentRequest`: the order id as text and the amount to charge. */
  datatype PaymentRequest = PaymentRequest(orderId: string, value: real)

  predicate IsDigit(c: char)
  {
    '0' <= c <= '9'
  }

  /** The decimal digits of `n`, most significant first, with no leading zero. */
  function NatToDecimal(n: nat): (s: string)
    ensures |s| >= 1 && forall i :: 0 <= i < |s| ==> IsDigit(s[i])
    ensures n > 0 ==> s[0] != '0'
    decreases n
  {
    var last := ('0' as int + n % 10) as char;
    if n < 10 then [last] else NatToDecimal(n / 10) + [last]
  }

  /** `int.ToString()`: a minus sign for a negative number, then the digits of its magnitude. */
  function IntToDecimal(i: int): (s: string)
    ensures |s| >= 1 && (s[0] == '-' <==> i < 0)
    ensures ParseDecimal(s) == Some(i)
  {
    if i < 0 then
      NatToDecimalRoundTrip(-i);
      var s := "-" + NatToDecimal(-i);
      assert s[1..] == NatToDecimal(-i);
      s
    else
      NatToDecimalRoundTrip(i);
      NatToDecimal(i)
  }

  /** The value of a string of decimal digits. */
  function DigitsValue(s: string): nat
    requires forall i :: 0 <= i < |s| ==> IsDigit(s[i])
  {
    if |s| == 0 then 0
    else
      assert IsDigit(s[|s| - 1]);
      10 * DigitsValue(s[..|s| - 1]) + (s[|s| - 1] as int - '0' as int)
  }

  /** `int.Parse` of the texts `int.ToString()` produces: an optional minus sign and at least
      one digit. */
  function ParseDecimal(s: string): Option<int>
  {
    if |s| >= 2 && s[0] == '-' && forall i :: 1 <= i < |s| ==> IsDigit(s[i]) then
      Some(-(DigitsValue(s[1..]) as int))
    else if |s| >= 1 && forall i :: 0 <= i < |s| ==> IsDigit(s[i]) then
      Some(DigitsValue(s))
    else
      None
  }

  lemma {:induction false} NatToDecimalRoundTrip(n: nat)
    ensures DigitsValue(NatToDecimal(n)) == n
    decreases n
  {
    var s := NatToDecimal(n);
    if n >= 10 {
      NatToDecimalRoundTrip(n / 10);
      assert s[..|s| - 1] == NatToDecimal(n / 10);
    }
  }

  /** Two orders with different ids never share a payment reference. */
  lemma IntToDecimalInjective(a: int, b: int)
    ensures IntToDecimal(a) == IntToDecimal(b) ==> a == b
  {
    assert ParseDecimal(IntToDecimal(a)) == Some(a);
    assert ParseDecimal(IntToDecimal(b)) == Some(b);
  }

  /** `orderDto.Items.Select(i => i.ProductId)`: the ids in request order, repeats kept. */
  function ProductIds(items: seq<OrderItemDto>): (ids: seq<ProductId>)
    ensures |ids| == |items|
    ensures forall i :: 0 <= i < |items| ==> ids[i] == items[i].productId
  {
    if |items| == 0 then [] else [items[0].productId] + ProductIds(items[1..])
  }

  /** The body of `GetOrdersToMonitorAsync` after the query: a null list is passed on as
      null, and every order is projected with the field-by-field constructor, which fails on
      an order whose item list is null. */
  method ProjectMonitoredOrders(entities: Option<seq<OrderRecord>>) returns (r: Result<Option<seq<OrderResponse>>, Error>)
    ensures entities.None? ==> r == Success(None)
    ensures entities.Some? ==>
              (r.Failure? <==> exists i :: 0 <= i < |entities.value| && entities.value[i].items.None?)
    ensures r.Failure? ==> r.error == ArgumentNull
    ensures entities.Some? && r.Success? ==>
              && r.value.Some? && |r.value.value| == |entities.value|
              && forall i :: 0 <= i < |entities.value| ==> r.value.value[i] == FromOrder(entities.value[i])
  {
    if entities.None? {
      return Success(None);
    }
    var orders := entities.value;
    var dtos: seq<OrderResponse> := [];
    var k := 0;
    while k < |orders|
      invariant 0 <= k <= |orders|
      invariant |dtos| == k
      invariant forall i :: 0 <= i < k ==> orders[i].items.Some? && dtos[i] == FromOrder(orders[i])
    {
      var e := orders[k];
      if e.items.None? {
        return Failure(ArgumentNull);
      }
      FromFieldsAgreesWithFromOrder(e);
      dtos := dtos + [FromFields(e.orderNumber, e.cpf, e.total, e.status, e.isActive, e.items,
                                 e.id, e.createdAt, e.updatedAt)];
      k := k + 1;
    }
    r := Success(Some(dtos));
  }

  /** The use cases. Each database call takes a flag saying whether the database answers it:
      `answered` for a method's one call, `fetchAnswered` and `saveAnswered` for the lookup and
      the save of a status change, `saveAnswered` for the insert of a new order. */
  class OrderManager {
    const repository: OrderRepository
    /** `IProductManager.GetActiveProductsByIds`. */
    const activeProducts: seq<ProductId> -> seq<ProductDto>
    const cpfRules: CpfRules
    /** The id lists sent to the products service, in order. */
    var productLookups: seq<seq<ProductId>>
    /** The requests sent to the payments service, in order. */
    var payments: seq<PaymentRequest>

    constructor (repository: OrderRepository, activeProducts: seq<ProductId> -> seq<ProductDto>, cpfRules: CpfRules)
      ensures this.repository == repository && this.activeProducts == activeProducts
      ensures this.cpfRules == cpfRules
      ensures productLookups == [] && payments == []
    {
      this.repository := repository;
      this.activeProducts := activeProducts;
      this.cpfRules := cpfRules;
      productLookups := [];
      payments := [];
    }

    /** `GetAllAsync`: one response per order of the status page, in the same order; any
        failure is wrapped in an application error. */
    method GetAll(status: OrderStatus, skip: int, take: int, answered: bool) returns (r: Result<seq<OrderResponse>, Error>)
      ensures !answered ==> r == Failure(Wrap(Persistence))
      ensures answered ==>
                var page := StatusQuery(repository.rows, status, skip, take);
                && r.Success? && |r.value| == |page|
                && forall i :: 0 <= i < |page| ==> r.value[i] == FromOrder(page[i])
      ensures r.Success? ==> forall i :: 0 <= i < |r.value| ==> r.value[i].status == status
      ensures r.Success? ==> |r.value| <= (if take <= 0 then 0 else take)
    {
      var found := repository.GetAll(status, skip, take, answered);
      if found.Failure? {
        return Failure(Wrap(found.error));
      }
      var orders := found.value;
      var result: seq<OrderResponse> := [];
      var k := 0;
      while k < |orders|
        invariant 0 <= k <= |orders|
        invariant |result| == k
        invariant forall i :: 0 <= i < k ==> result[i] == FromOrder(orders[i])
      {
        result := result + [FromOrder(orders[k])];
        k := k + 1;
      }
      r := Success(result);
    }

    /** `GetOrdersToMonitorAsync`: the kitchen page, projected one for one; any failure is
        wrapped in an application error. */
    method GetOrdersToMonitor(skip: int, take: int, answered: bool) returns (r: Result<Option<seq<OrderResponse>>, Error>)
      ensures !answered ==> r == Failure(Wrap(Persistence))
      ensures answered ==>
                var page := MonitorQuery(repository.rows, skip, take);
                && (r.Failure? <==> exists i :: 0 <= i < |page| && page[i].items.None?)
                && (r.Failure? ==> r.error == Wrap(ArgumentNull))
                && (r.Success? ==> r.value.Some? && |r.value.value| == |page|
                                   && forall i :: 0 <= i < |page| ==> r.value.value[i] == FromOrder(page[i]))
      ensures r.Success? && r.value.Some? ==>
                forall i :: 0 <= i < |r.value.value| ==>
                  r.value.value[i].status != Completed && r.value.value[i].status != Canceled
    {
      var found := repository.GetOrdersToMonitor(skip, take, answered);
      if found.Failure? {
        return Failure(Wrap(found.error));
      }
      var projected := ProjectMonitoredOrders(Some(found.value));
      if projected.Failure? {
        return Failure(Wrap(projected.error));
      }
      r := projected;
    }

    /** `GetByIdAsync`: the response for the stored order with that id, or null when there is
        none; a failure is wrapped in an application error. */
    method GetById(id: int, answered: bool) returns (r: Result<Option<OrderResponse>, Error>)
      ensures !answered ==> r == Failure(Wrap(Persistence))
      ensures answered ==> r.Success?
      ensures r.Success? ==>
                (r.value.None? <==> forall i :: 0 <= i < |repository.rows| ==> repository.rows[i].id != id)
      ensures r.Success? && r.value.Some? ==>
                exists i :: 0 <= i < |repository.rows| && repository.rows[i].id == id
                            && r.value.value == FromOrder(repository.rows[i])
    {
      var found := repository.GetById(id, answered);
      if found.Failure? {
        return Failure(Wrap(found.error));
      }
      if found.value.None? {
        return Success(None);
      }
      r := Success(Some(FromOrder(found.value.value)));
    }

    /** `UpdateStatusAsync`: moves the stored order one step along the pipeline and saves it.
        A missing order is reported as such; every other failure is wrapped in an application
        error. */
    method UpdateStatus(orderId: int, now: Time, fetchAnswered: bool, saveAnswered: bool) returns (r: Result<OrderResponse, Error>)
      requires repository.Valid()
      modifies repository`rows, repository`calls
      ensures repository.Valid()
      ensures !fetchAnswered ==>
                && r == Failure(Wrap(Persistence))
                && repository.rows == old(repository.rows) && repository.calls == old(repository.calls)
      ensures fetchAnswered && FindById(old(repository.rows), orderId).None? ==>
                && r == Failure(OrderNotFound(orderId))
                && repository.rows == old(repository.rows) && repository.calls == old(repository.calls)
      ensures fetchAnswered && FindById(old(repository.rows), orderId).Some? ==>
                var stored := FindById(old(repository.rows), orderId).value;
                var next := Advance(stored.status);
                && (next.Failure? ==>
                      && r == Failure(Wrap(next.error))
                      && repository.rows == old(repository.rows) && repository.calls == old(repository.calls))
                && (next.Success? ==> repository.calls == old(repository.calls) + [Updated(orderId)])
                && (next.Success? && !saveAnswered ==>
                      r == Failure(Wrap(Persistence)) && repository.rows == old(repository.rows))
                && (next.Success? && saveAnswered ==>
                      var changed := stored.(status := next.value, updatedAt := now);
                      && r == Success(FromOrder(changed))
                      && repository.rows == old(repository.rows)[IndexOfId(old(repository.rows), orderId) := changed])
    {
      var found := repository.GetById(orderId, fetchAnswered);
      if found.Failure? {
        return Failure(Wrap(found.error));
      }
      if found.value.None? {
        return Failure(OrderNotFound(orderId));
      }
      var order := new Order.FromRecord(found.value.value);
      var changed := order.ChangeStatus(now);
      if changed.Fail? {
        return Failure(Wrap(changed.error));
      }
      var saved := repository.Update(order, saveAnswered);
      if saved.Failure? {
        return Failure(Wrap(saved.error));
      }
      r := Success(FromOrder(order.Record()));
    }

    /** `CreateAsync` as written: the looked-up products are entities, so the entity overload
        of the order constructor is chosen, and it always throws. */
    method CreateAsWritten(request: OrderRequest) returns (r: Result<OrderResponse, Error>)
      modifies this`productLookups
      ensures request.items.None? ==> r == Failure(ArgumentNull) && productLookups == old(productLookups)
      ensures request.items.Some? ==>
                r == Failure(NotImplemented)
                && productLookups == old(productLookups) + [ProductIds(request.items.value)]
    {
      if request.items.None? {
        return Failure(ArgumentNull);
      }
      productLookups := productLookups + [ProductIds(request.items.value)];
      r := Failure(NotImplemented);
    }

    /** `CreateAsync` with the order built from the active products' prices: a null item list
        fails before anything is sent; otherwise the ids are looked up, the order is built,
        stored under a new id, a payment for its total is requested, and the response echoes
        the request's lines. Errors are not wrapped. */
    method Create(request: OrderRequest, orderNumber: int, createdAt: Time, updatedAt: Time,
                  saveAnswered: bool)
      returns (r: Result<OrderResponse, Error>)
      requires repository.Valid()
      requires MinOrderNumber <= orderNumber <= MaxOrderNumber
      modifies this`productLookups, this`payments, repository`rows, repository`nextId, repository`calls
      ensures repository.Valid()
      ensures request.items.None? ==>
                && r == Failure(ArgumentNull)
                && productLookups == old(productLookups) && payments == old(payments)
                && repository.rows == old(repository.rows) && repository.calls == old(repository.calls)
      ensures request.items.Some? ==>
                productLookups == old(productLookups) + [ProductIds(request.items.value)]
      ensures request.items.Some? ==>
                var built := NewOrder(request, activeProducts(ProductIds(request.items.value)), cpfRules,
                                      orderNumber, createdAt, updatedAt);
                && (built.Failure? ==>
                      && r == Failure(built.error) && payments == old(payments)
                      && repository.rows == old(repository.rows) && repository.calls == old(repository.calls))
                && (built.Success? ==> repository.calls == old(repository.calls) + [Created])
                && (built.Success? && !saveAnswered ==>
                      r == Failure(Persistence) && payments == old(payments) && repository.rows == old(repository.rows))
                && (built.Success? && saveAnswered ==>
                      && r.Success?
                      && r.value.id == old(repository.nextId) && r.value.id != UnassignedId
                      && repository.rows == old(repository.rows) + [built.value.(id := r.value.id)]
                      && r.value == FromOrder(built.value.(id := r.value.id))
                      && r.value.items == request.items.value
                      && payments == old(payments) + [PaymentRequest(IntToDecimal(r.value.id), r.value.total)])
    {
      if request.items.None? {
        return Failure(ArgumentNull);
      }
      var ids := ProductIds(request.items.value);
      productLookups := productLookups + [ids];
      var products := activeProducts(ids);
      var built := NewOrder(request, products, cpfRules, orderNumber, createdAt, updatedAt);
      if built.Failure? {
        return Failure(built.error);
      }
      var order := new Order.FromRecord(built.value);
      var saved := repository.Create(order, saveAnswered);
      if saved.Failure? {
        return Failure(saved.error);
      }
      ProjectBuiltItems(UnassignedId, request.items.value);
      var response := OrderResponse(order.id, order.orderNumber, order.cpf, order.total, order.status,
                                    false, order.createdAt, order.updatedAt, request.items.value);
      payments := payments + [PaymentRequest(IntToDecimal(order.id), order.total)];
      r := Success(response);
    }
  }
}

=== FILE: order_repository.dfy ===
/** The order store and its queries
    (src/Adapters/Driven/Infra.Database.SqlServer/Order/Repository/OrderRepository.cs).
    The database is a sequence of order records in insertion order. */
module OrderRepositories {
  import opened Common
  import opened Errors
  import opened OrderStatuses
  import opened Orders

  /** `.Where(keep)`: the rows that satisfy `keep`, in the store's order. */
  function Where(rows: seq<OrderRecord>, keep: OrderRecord -> bool): (r: seq<OrderRecord>)
    ensures |r| <= |rows|
    ensures forall i :: 0 <= i < |r| ==> keep(r[i])
    ensures forall i :: 0 <= i < |r| ==> r[i] in rows
    ensures forall i :: 0 <= i < |rows| && keep(rows[i]) ==> rows[i] in r
  {
    if |rows| == 0 then []
    else if keep(rows[0]) then [rows[0]] + Where(rows[1..], keep)
    else Where(rows[1..], keep)
  }

  /** The filter of `GetAllAsync`: exactly the requested status. */
  function WithStatus(rows: seq<OrderRecord>, status: OrderStatus): (r: seq<OrderRecord>)
    ensures forall i :: 0 <= i < |r| ==> r[i].status == status && r[i] in rows
    ensures forall i :: 0 <= i < |rows| && rows[i].status == status ==> rows[i] in r
  {
    Where(rows, (o: OrderRecord) => o.status == status)
  }

  /** The filter of `GetOrdersToMonitorAsync`: neither Completed nor Canceled. */
  function Monitored(rows: seq<OrderRecord>): (r: seq<OrderRecord>)
    ensures forall i :: 0 <= i < |r| ==> r[i].status != Completed && r[i].status != Canceled && r[i] in rows
    ensures forall i :: 0 <= i < |rows| && rows[i].status != Completed && rows[i].status != Canceled ==> rows[i] in r
  {
    Where(rows, (o: OrderRecord) => o.status != Completed && o.status != Canceled)
  }

  /** A count as `Enumerable.Skip` and `Enumerable.Take` read it against a sequence of length
      `len`: a count of zero or less is zero, a count past the end is the end. */
  function Clamp(count: int, len: nat): nat
  {
    if count <= 0 then 0 else if count >= len then len else count
  }

  /** `.Skip(skip).Take(take)`. */
  function Page(s: seq<OrderRecord>, skip: int, take: int): (r: seq<OrderRecord>)
    ensures |r| <= |s|
    ensures |r| <= (if take <= 0 then 0 else take)
    ensures skip <= 0 && take >= |s| ==> r == s
  {
    var rest := s[Clamp(skip, |s|)..];
    rest[..Clamp(take, |rest|)]
  }

  /** A page is the slice that starts `skip` rows in and holds at most `take` rows. */
  lemma PageIsSlice(s: seq<OrderRecord>, skip: int, take: int)
    ensures var lo := if skip <= 0 then 0 else skip;
            && |Page(s, skip, take)| <= (if take <= 0 then 0 else take)
            && (lo >= |s| ==> Page(s, skip, take) == [])
            && (lo < |s| ==> Page(s, skip, take) == s[lo..if take <= 0 then lo else if lo + take >= |s| then |s| else lo + take])
  {
  }

  /** Every element of a page comes from the paged sequence. */
  lemma PageElements(s: seq<OrderRecord>, skip: int, take: int)
    ensures multiset(Page(s, skip, take)) <= multiset(s)
    ensures forall o :: o in Page(s, skip, take) ==> o in s
  {
    var rest := s[Clamp(skip, |s|)..];
    assert s == s[..Clamp(skip, |s|)] + rest;
    assert rest == rest[..Clamp(take, |rest|)] + rest[Clamp(take, |rest|)..];
  }

  /** The `OrderByDescending(Status == Ready).ThenByDescending(Status == InPreparation)
      .ThenByDescending(Status == Received).ThenBy(CreatedAt)` ordering: on each flag `true`
      sorts before `false`, and the creation time breaks the remaining ties. `a` may come
      before `b`. */
  predicate KitchenOrder(a: OrderRecord, b: OrderRecord)
    ensures KitchenOrder(a, b) <==>
              Priority(a.status) < Priority(b.status)
              || (Priority(a.status) == Priority(b.status) && a.createdAt <= b.createdAt)
  {
    if (a.status == Ready) != (b.status == Ready) then a.status == Ready
    else if (a.status == InPreparation) != (b.status == InPreparation) then a.status == InPreparation
    else if (a.status == Received) != (b.status == Received) then a.status == Received
    else a.createdAt <= b.createdAt
  }

  /** The kitchen's priority of a status: Ready first, then InPreparation, then Received. */
  function Priority(s: OrderStatus): (p: nat)
    ensures p <= 3
    ensures (s == Completed || s == Canceled) <==> p == 3
  {
    match s
    case Ready => 0
    case InPreparation => 1
    case Received => 2
    case Completed => 3
    case Canceled => 3
  }

  /** The ordering is total and transitive, as a sort key must be. */
  lemma KitchenOrderIsTotalPreorder()
    ensures forall a, b :: KitchenOrder(a, b) || KitchenOrder(b, a)
    ensures forall a, b, c :: KitchenOrder(a, b) && KitchenOrder(b, c) ==> KitchenOrder(a, c)
  {
  }

  ghost predicate SortedForKitchen(s: seq<OrderRecord>)
  {
    forall i, j :: 0 <= i < j < |s| ==> KitchenOrder(s[i], s[j])
  }

  /** Inserts `x` before the first element it may precede, and so after every element that
      must come before it; among ties `x` goes first. */
  function InsertForKitchen(x: OrderRecord, s: seq<OrderRecord>): (r: seq<OrderRecord>)
    ensures multiset(r) == multiset(s) + multiset{x}
    ensures |r| == |s| + 1
  {
    if |s| == 0 || KitchenOrder(x, s[0]) then [x] + s
    else
      assert s == [s[0]] + s[1..];
      [s[0]] + InsertForKitchen(x, s[1..])
  }

  /** The sort LINQ performs: stable, so equal keys keep their page order. */
  function SortForKitchen(s: seq<OrderRecord>): (r: seq<OrderRecord>)
    ensures multiset(r) == multiset(s)
    ensures |r| == |s|
  {
    if |s| == 0 then []
    else
      assert s == [s[0]] + s[1..];
      InsertForKitchen(s[0], SortForKitchen(s[1..]))
  }

  lemma {:induction false} InsertKeepsSorted(x: OrderRecord, s: seq<OrderRecord>)
    requires SortedForKitchen(s)
    ensures SortedForKitchen(InsertForKitchen(x, s))
  {
    KitchenOrderIsTotalPreorder();
    var r := InsertForKitchen(x, s);
    if |s| == 0 || KitchenOrder(x, s[0]) {
      assert r == [x] + s;
    } else {
      var tail := InsertForKitchen(x, s[1..]);
      InsertKeepsSorted(x, s[1..]);
      assert r == [s[0]] + tail;
      forall j | 0 <= j < |tail|
        ensures KitchenOrder(s[0], tail[j])
      {
        assert tail[j] in multiset(tail);
        assert tail[j] in multiset(s[1..]) || tail[j] == x;
        if tail[j] != x {
          assert tail[j] in s[1..];
        }
      }
    }
  }

  lemma {:induction false} SortIsSorted(s: seq<OrderRecord>)
    ensures SortedForKitchen(SortForKitchen(s))
  {
    if |s| > 0 {
      SortIsSorted(s[1..]);
      InsertKeepsSorted(s[0], SortForKitchen(s[1..]));
    }
  }

  /** The query of `GetAllAsync`. */
  function StatusQuery(rows: seq<OrderRecord>, status: OrderStatus, skip: int, take: int): (r: seq<OrderRecord>)
    ensures forall i :: 0 <= i < |r| ==> r[i].status == status && r[i] in rows
    ensures |r| <= (if take <= 0 then 0 else take)
  {
    PageElements(WithStatus(rows, status), skip, take);
    Page(WithStatus(rows, status), skip, take)
  }

  /** The query of `GetOrdersToMonitorAsync`: the page is cut from the filtered rows BEFORE
      the sort, so only the page is put in kitchen order. */
  function MonitorQuery(rows: seq<OrderRecord>, skip: int, take: int): (r: seq<OrderRecord>)
    ensures forall i :: 0 <= i < |r| ==> r[i].status != Completed && r[i].status != Canceled && r[i] in rows
    ensures |r| <= (if take <= 0 then 0 else take)
    ensures multiset(r) == multiset(Page(Monitored(rows), skip, take))
    ensures SortedForKitchen(r)
  {
    var page := Page(Monitored(rows), skip, take);
    PageElements(Monitored(rows), skip, take);
    SortIsSorted(page);
    var r := SortForKitchen(page);
    assert forall i :: 0 <= i < |r| ==> r[i] in page by {
      forall i | 0 <= i < |r|
        ensures r[i] in page
      {
        assert r[i] in multiset(r);
      }
    }
    r
  }

  /** Every order listed by status has that status, and there are at most `take` of them,
      taken as one slice of the rows with that status. */
  lemma StatusQueryProperties(rows: seq<OrderRecord>, status: OrderStatus, skip: int, take: int)
    ensures forall o :: o in StatusQuery(rows, status, skip, take) ==> o.status == status && o in rows
    ensures |StatusQuery(rows, status, skip, take)| <= (if take <= 0 then 0 else take)
    ensures var lo := if skip <= 0 then 0 else skip;
            var filtered := WithStatus(rows, status);
            lo < |filtered| ==> StatusQuery(rows, status, skip, take)
                                == filtered[lo..if take <= 0 then lo else if lo + take >= |filtered| then |filtered| else lo + take]
  {
  }

  /** The monitor never lists a Completed or Canceled order, lists at most `take` orders,
      lists exactly the orders of its page, and lists them by priority and then by age. */
  lemma MonitorQueryProperties(rows: seq<OrderRecord>, skip: int, take: int)
    ensures var r := MonitorQuery(rows, skip, take);
            && (forall o :: o in r ==> o in rows && o.status != Completed && o.status != Canceled)
            && |r| <= (if take <= 0 then 0 else take)
            && multiset(r) == multiset(Page(Monitored(rows), skip, take))
            && (forall i, j :: 0 <= i < j < |r| ==>
                  Priority(r[i].status) < Priority(r[j].status)
                  || (Priority(r[i].status) == Priority(r[j].status) && r[i].createdAt <= r[j].createdAt))
  {
    var page := Page(Monitored(rows), skip, take);
    var r := MonitorQuery(rows, skip, take);
    PageIsSlice(Monitored(rows), skip, take);
    PageElements(Monitored(rows), skip, take);
    SortIsSorted(page);
    forall o | o in r
      ensures o in rows && o.status != Completed && o.status != Canceled
    {
      assert o in multiset(r);
      assert o in page;
    }
  }

  /** `FirstOrDefault(x => x.Id == id)`, as a position: the first row with that id, or -1. */
  function IndexOfId(rows: seq<OrderRecord>, id: int): (k: int)
    ensures -1 <= k < |rows|
    ensures k == -1 <==> forall i :: 0 <= i < |rows| ==> rows[i].id != id
    ensures k != -1 ==> rows[k].id == id && forall i :: 0 <= i < k ==> rows[i].id != id
  {
    FirstIndex(rows, (o: OrderRecord) => o.id == id)
  }

  /** The stored order with the given id, or null. */
  function FindById(rows: seq<OrderRecord>, id: int): (r: Option<OrderRecord>)
    ensures r.None? <==> forall i :: 0 <= i < |rows| ==> rows[i].id != id
    ensures r.Some? ==> r.value in rows && r.value.id == id
  {
    var k := IndexOfId(rows, id);
    if k == -1 then None else Some(rows[k])
  }

  /** A write the repository was asked to make. */
  datatype RepositoryCall = Created | Updated(orderId: int)

  /** Every method takes `answered`: whether the database answers that call. A call it does
      not answer fails with `Persistence` and changes no row, whatever earlier calls did. */
  class OrderRepository {
    var rows: seq<OrderRecord>
    /** The value the identity column hands out next. */
    var nextId: int
    var calls: seq<RepositoryCall>

    /** Ids are positive, increase in insertion order and lie below the next id. */
    ghost predicate Valid()
      reads this
    {
      && nextId >= 1
      && (forall i :: 0 <= i < |rows| ==> 1 <= rows[i].id < nextId)
      && (forall i, j :: 0 <= i < j < |rows| ==> rows[i].id < rows[j].id)
    }

    constructor ()
      ensures Valid()
      ensures rows == [] && calls == [] && nextId == 1
    {
      rows := [];
      nextId := 1;
      calls := [];
    }

    /** `GetAllAsync(status, skip, take)`. */
    method GetAll(status: OrderStatus, skip: int, take: int, answered: bool) returns (r: Result<seq<OrderRecord>, Error>)
      ensures !answered ==> r == Failure(Persistence)
      ensures answered ==> r == Success(StatusQuery(rows, status, skip, take))
      ensures r.Success? ==> forall o :: o in r.value ==> o.status == status && o in rows
      ensures r.Success? ==> |r.value| <= (if take <= 0 then 0 else take)
    {
      if !answered {
        return Failure(Persistence);
      }
      StatusQueryProperties(rows, status, skip, take);
      r := Success(Page(WithStatus(rows, status), skip, take));
    }

    /** `GetOrdersToMonitorAsync(skip, take)`. */
    method GetOrdersToMonitor(skip: int, take: int, answered: bool) returns (r: Result<seq<OrderRecord>, Error>)
      ensures !answered ==> r == Failure(Persistence)
      ensures answered ==> r == Success(MonitorQuery(rows, skip, take))
      ensures r.Success? ==> forall o :: o in r.value ==> o.status != Completed && o.status != Canceled
    {
      if !answered {
        return Failure(Persistence);
      }
      MonitorQueryProperties(rows, skip, take);
      r := Success(SortForKitchen(Page(Monitored(rows), skip, take)));
    }

    /** `GetByIdAsync(id)`: the stored order with that id, or null. */
    method GetById(id: int, answered: bool) returns (r: Result<Option<OrderRecord>, Error>)
      ensures !answered ==> r == Failure(Persistence)
      ensures answered ==> r.Success? && r.value == FindById(rows, id)
      ensures r.Success? && r.value.Some? ==> r.value.value in rows && r.value.value.id == id
    {
      if !answered {
        return Failure(Persistence);
      }
      var k := IndexOfId(rows, id);
      r := Success(if k == -1 then None else Some(rows[k]));
    }

    /** `CreateAsync(order)`: saving gives the order the next identity value, on the caller's
        own object, and stores it; the same object is returned. */
    method Create(order: Order, answered: bool) returns (r: Result<Order, Error>)
      requires Valid()
      modifies this`rows, this`nextId, this`calls, order`id
      ensures Valid()
      ensures calls == old(calls) + [Created]
      ensures !answered ==> r == Failure(Persistence) && rows == old(rows) && order.id == old(order.id)
      ensures answered ==> r == Success(order) && order.id == old(nextId) && order.id != 0
      ensures answered ==> forall o :: o in old(rows) ==> o.id != order.id
      ensures answered ==> rows == old(rows) + [old(order.Record()).(id := order.id)]
    {
      calls := calls + [Created];
      if !answered {
        return Failure(Persistence);
      }
      order.id := nextId;
      rows := rows + [order.Record()];
      nextId := nextId + 1;
      r := Success(order);
    }

    /** `UpdateAsync(order)`: the stored order with the same id is replaced by the argument's
        fields and every other row is kept; saving an order that is not stored affects no row
        and fails. */
    method Update(order: Order, answered: bool) returns (r: Result<Order, Error>)
      requires Valid()
      modifies this`rows, this`calls
      ensures Valid()
      ensures calls == old(calls) + [Updated(order.id)]
      ensures r.Success? <==> answered && IndexOfId(old(rows), order.id) != -1
      ensures r.Success? ==> r.value == order
      ensures r.Success? ==> rows == old(rows)[IndexOfId(old(rows), order.id) := order.Record()]
      ensures r.Failure? ==> r.error == Persistence && rows == old(rows)
    {
      calls := calls + [Updated(order.id)];
      if !answered {
        return Failure(Persistence);
      }
      var k := IndexOfId(rows, order.id);
      if k == -1 {
        return Failure(Persistence);
      }
      rows := rows[k := order.Record()];
      r := Success(order);
    }
  }
}

=== FILE: order_response.dfy ===
/** The response projection of an order (src/Core/Domain/Order/Dtos/OrderResponseDto.cs). */
module OrderResponses {
  import opened Common
  import opened OrderStatuses
  import opened OrderItems
  import opened Orders

  datatype OrderResponse = OrderResponse(
    id: int,
    orderNumber: int,
    cpf: Option<string>,
    total: real,
    status: OrderStatus,
    isActive: bool,
    createdAt: Time,
    updatedAt: Time,
    items: seq<OrderItemDto>)

  /** `items.Select(item => new OrderItemDto { ProductId, Quantity })`. */
  function ProjectItems(items: seq<OrderItem>): (r: seq<OrderItemDto>)
    ensures |r| == |items|
    ensures forall i :: 0 <= i < |items| ==>
              r[i].productId == items[i].productId && r[i].quantity == items[i].quantity
  {
    if |items| == 0 then []
    else [OrderItemDto(items[0].productId, items[0].quantity)] + ProjectItems(items[1..])
  }

  /** The projection of a possibly null item list: null projects to an empty list. */
  function ProjectItemList(items: Option<seq<OrderItem>>): (r: seq<OrderItemDto>)
    ensures items.None? ==> r == []
    ensures items.Some? ==> r == ProjectItems(items.value)
  {
    if items.Some? then ProjectItems(items.value) else []
  }

  /** The constructor from an entity: every scalar field is copied unchanged and the items
      are projected one for one, in order. */
  function FromOrder(order: OrderRecord): (d: OrderResponse)
    ensures d.id == order.id && d.orderNumber == order.orderNumber && d.cpf == order.cpf
    ensures d.total == order.total && d.status == order.status && d.isActive == order.isActive
    ensures d.createdAt == order.createdAt && d.updatedAt == order.updatedAt
    ensures order.items.None? ==> d.items == []
    ensures order.items.Some? ==> |d.items| == |order.items.value|
    ensures order.items.Some? ==> forall i :: 0 <= i < |d.items| ==>
              d.items[i] == OrderItemDto(order.items.value[i].productId, order.items.value[i].quantity)
  {
    OrderResponse(order.id, order.orderNumber, order.cpf, order.total, order.status,
                  order.isActive, order.createdAt, order.updatedAt, ProjectItemList(order.items))
  }

  /** The field-by-field constructor. */
  function FromFields(orderNumber: int, cpf: Option<string>, total: real, status: OrderStatus,
                      isActive: bool, items: Option<seq<OrderItem>>, id: int,
                      createdAt: Time, updatedAt: Time): (d: OrderResponse)
    ensures d.id == id && d.orderNumber == orderNumber && d.cpf == cpf
    ensures d.total == total && d.status == status && d.isActive == isActive
    ensures d.createdAt == createdAt && d.updatedAt == updatedAt
    ensures d.items == ProjectItemList(items)
  {
    OrderResponse(id, orderNumber, cpf, total, status, isActive, createdAt, updatedAt,
                  ProjectItemList(items))
  }

  /** Given an entity's own fields, the field-by-field constructor builds the same response as
      the entity constructor. */
  lemma FromFieldsAgreesWithFromOrder(order: OrderRecord)
    ensures FromFields(order.orderNumber, order.cpf, order.total, order.status, order.isActive,
                       order.items, order.id, order.createdAt, order.updatedAt) == FromOrder(order)
  {
  }

  /** Projecting the items built from a request gives back the request's lines. */
  lemma ProjectBuiltItems(orderId: int, lines: seq<OrderItemDto>)
    ensures ProjectItems(BuildItems(orderId, lines)) == lines
  {
  }
}

=== FILE: order_service.dfy ===
/** The order domain service (src/Core/Domain/Order/Services/OrderService.cs). */
module OrderServices {
  import opened Common
  import opened Errors
  import opened OrderStatuses
  import opened Orders
  import opened OrderRepositories

  class OrderService {
    const repository: OrderRepository

    constructor (repository: OrderRepository)
      ensures this.repository == repository
    {
      this.repository := repository;
    }

    /** `ValidadeByIdAsync`: the stored order with that id; an id that is not stored is a
        domain error, and a failing database passes its error through. `answered` says
        whether the database answers the lookup. */
    method ValidateById(id: int, answered: bool) returns (r: Result<OrderRecord, Error>)
      ensures !answered ==> r == Failure(Persistence)
      ensures answered ==> (r.Success? <==> exists i :: 0 <= i < |repository.rows| && repository.rows[i].id == id)
      ensures answered && r.Failure? ==> r.error == Domain
      ensures r.Success? ==> r.value in repository.rows && r.value.id == id
    {
      var found := repository.GetById(id, answered);
      if found.Failure? {
        return Failure(found.error);
      }
      if found.value.None? {
        return Failure(Domain);
      }
      r := Success(found.value.value);
    }

    /** `ConfirmAsync`: only a Received order may be confirmed; it moves to InPreparation and
        is saved. Any other status is a domain error and nothing is saved. `answered` says
        whether the database answers the save. */
    method Confirm(order: Order, now: Time, answered: bool) returns (r: Outcome<Error>)
      requires repository.Valid()
      modifies order`status, order`updatedAt, repository`rows, repository`calls
      ensures repository.Valid()
      ensures old(order.status) != Received ==>
                r == Fail(Domain) && order.Record() == old(order.Record())
                && repository.rows == old(repository.rows) && repository.calls == old(repository.calls)
      ensures old(order.status) == Received ==>
                && order.Record() == old(order.Record()).(status := InPreparation, updatedAt := now)
                && repository.calls == old(repository.calls) + [Updated(order.id)]
      ensures old(order.status) == Received ==>
                (r.Pass? <==> answered && IndexOfId(old(repository.rows), order.id) != -1)
      ensures old(order.status) == Received && r.Pass? ==>
                repository.rows == old(repository.rows)[IndexOfId(old(repository.rows), order.id) := order.Record()]
      ensures r.Fail? ==> repository.rows == old(repository.rows)
    {
      if order.status != Received {
        return Fail(Domain);
      }
      var changed := order.ChangeStatus(now);
      assert changed.Pass?;
      var saved := repository.Update(order, answered);
      if saved.Failure? {
        return Fail(saved.error);
      }
      r := Pass;
    }
  }
}

=== FILE: order_status.dfy ===
/** The order statuses (src/Core/Domain/Order/ValueObjects/OrderStatus.cs), as the closed set
    of the five declared values; a stored code outside 0..4 is not represented. */
module OrderStatuses {
  import opened Common

  datatype OrderStatus = Received | InPreparation | Ready | Completed | Canceled

  /** Every status, in declaration order. */
  const AllStatuses: seq<OrderStatus> := [Received, InPreparation, Ready, Completed, Canceled]

  /** The preparation pipeline an order walks through. */
  const Pipeline: seq<OrderStatus> := [Received, InPreparation, Ready, Completed]

  /** The integer value of each enum member. */
  function Code(s: OrderStatus): (c: nat)
    ensures c < |AllStatuses| && AllStatuses[c] == s
  {
    match s
    case Received => 0
    case InPreparation => 1
    case Ready => 2
    case Completed => 3
    case Canceled => 4
  }

  /** The enum member with a given integer value, if there is one. */
  function FromCode(c: int): (r: Option<OrderStatus>)
    ensures r.Some? <==> 0 <= c < |AllStatuses|
    ensures r.Some? ==> Code(r.value) == c
  {
    if 0 <= c < |AllStatuses| then Some(AllStatuses[c]) else None
  }

  /** There are exactly five statuses and their codes are 0 to 4, one each. */
  lemma ExactlyFiveStatuses()
    ensures |AllStatuses| == 5
    ensures forall s :: s in AllStatuses
    ensures forall i :: 0 <= i < |AllStatuses| ==> Code(AllStatuses[i]) == i
    ensures forall s, t :: Code(s) == Code(t) ==> s == t
  {
    forall s: OrderStatus
      ensures s in AllStatuses
    {
      assert AllStatuses[Code(s)] == s;
    }
  }

  /** Decoding an encoded status gives it back. */
  lemma CodeRoundTrip(s: OrderStatus)
    ensures FromCode(Code(s)) == Some(s)
  {
  }

  /** The pipeline order matches ascending codes 0..3, and Canceled (code 4) is not on it. */
  lemma PipelineFollowsCodes()
    ensures forall i :: 0 <= i < |Pipeline| ==> Code(Pipeline[i]) == i
    ensures Canceled !in Pipeline && Code(Canceled) == 4
  {
  }
}

=== FILE: product.dfy ===
/** A catalogue product and its image gallery (src/Core/Domain/Products/Entities/Product.cs). */
module Products {
  import opened Common
  import opened Errors
  import opened ImageProducts
  import opened ProductDtos

  /** `MAX_IMAGES`. */
  const MaxImages: nat := 5

  /** `CheckProductValue`: the price must be strictly positive. */
  function CheckProductValue(price: real): (r: Outcome<Error>)
    ensures r.Pass? <==> price > 0.0
    ensures r.Fail? ==> r.error == ProductInvalidPrice
  {
    if price <= 0.0 then Fail(ProductInvalidPrice) else Pass
  }

  /** `List.FindIndex(i => i.Id == id)`: the first position holding an image with that id,
      or -1 when there is none. */
  function FindImageIndex(images: seq<ImageProduct>, id: int): (k: int)
    ensures -1 <= k < |images|
    ensures k == -1 <==> forall i :: 0 <= i < |images| ==> images[i].id != id
    ensures k != -1 ==> images[k].id == id && forall i :: 0 <= i < k ==> images[i].id != id
  {
    FirstIndex(images, (image: ImageProduct) => image.id == id)
  }

  class Product {
    const id: string
    var name: string
    var description: string
    var category: Category
    var price: real
    var isActive: bool
    const createdAt: Time
    var updatedAt: Time
    var images: seq<ImageProduct>

    /** The field assignments of the public constructor; `NewProduct` adds its price check. */
    constructor (name: string, description: string, category: Category, price: real,
                 isActive: bool, id: string, images: seq<ImageProduct>,
                 createdAt: Time, updatedAt: Time)
      ensures this.name == name && this.description == description
      ensures this.category == category && this.price == price && this.isActive == isActive
      ensures this.id == id && this.images == images
      ensures this.createdAt == createdAt && this.updatedAt == updatedAt
    {
      this.id := id;
      this.name := name;
      this.description := description;
      this.category := category;
      this.price := price;
      this.isActive := isActive;
      this.createdAt := createdAt;
      this.updatedAt := updatedAt;
      this.images := images;
    }

    /** Assigns the five fields and the update time first and validates the price last, so
        a rejected price is left in the object when the exception is thrown. */
    method UpdateProduct(name: string, description: string, category: Category, price: real,
                         isActive: bool, now: Time) returns (r: Outcome<Error>)
      modifies this`name, this`description, this`category, this`price, this`isActive, this`updatedAt
      ensures this.name == name && this.description == description && this.category == category
      ensures this.price == price && this.isActive == isActive && this.updatedAt == now
      ensures r == CheckProductValue(price)
      ensures r.Fail? <==> price <= 0.0
    {
      this.name := name;
      this.description := description;
      this.category := category;
      this.price := price;
      this.isActive := isActive;
      this.updatedAt := now;
      r := CheckProductValue(this.price);
    }

    /** Appends the image unless the gallery holds exactly `MaxImages` images. The guard is an
        equality, so the cap holds only for a gallery that started within it. */
    method AddImage(image: ImageProduct) returns (r: Outcome<Error>)
      modifies this`images
      ensures r.Fail? <==> |old(images)| == MaxImages
      ensures r.Fail? ==> r.error == ProductMaxImage && images == old(images)
      ensures r.Pass? ==> images == old(images) + [image] && |images| == |old(images)| + 1
      ensures |old(images)| <= MaxImages ==> |images| <= MaxImages
    {
      if |images| == MaxImages {
        return Fail(ProductMaxImage);
      }
      images := images + [image];
      r := Pass;
    }

    /** Replaces the first image whose id equals the argument's; with no such image the
        gallery is left as it is. */
    method ChangeImage(image: ImageProduct)
      modifies this`images
      ensures |images| == |old(images)|
      ensures FindImageIndex(old(images), image.id) == -1 ==> images == old(images)
      ensures FindImageIndex(old(images), image.id) != -1 ==>
                images == old(images)[FindImageIndex(old(images), image.id) := image]
    {
      var index := FindImageIndex(images, image.id);
      if index == -1 {
        return;
      }
      images := images[index := image];
    }
  }

  /** `new Product(...)`: the price is checked before the object escapes; a null image list
      becomes an empty gallery, and absent dates keep their default. */
  method NewProduct(name: string, description: string, category: Category, price: real,
                    isActive: bool, id: string, images: Option<seq<ImageProduct>>,
                    createdAt: Option<Time>, updatedAt: Option<Time>) returns (r: Result<Product, Error>)
    ensures r.Failure? <==> price <= 0.0
    ensures r.Failure? ==> r.error == ProductInvalidPrice
    ensures r.Success? ==> fresh(r.value)
    ensures r.Success? ==> r.value.name == name && r.value.description == description
    ensures r.Success? ==> r.value.category == category && r.value.price == price
    ensures r.Success? ==> r.value.isActive == isActive && r.value.id == id
    ensures r.Success? ==> r.value.images == (if images.Some? then images.value else [])
    ensures r.Success? ==> r.value.createdAt == (if createdAt.Some? then createdAt.value else DefaultTime)
    ensures r.Success? ==> r.value.updatedAt == (if updatedAt.Some? then updatedAt.value else DefaultTime)
  {
    var check := CheckProductValue(price);
    if check.Fail? {
      return Failure(check.error);
    }
    var gallery := if images.Some? then images.value else [];
    var created := if createdAt.Some? then createdAt.value else DefaultTime;
    var updated := if updatedAt.Some? then updatedAt.value else DefaultTime;
    var product := new Product(name, description, category, price, isActive, id, gallery, created, updated);
    return Success(product);
  }
}

=== FILE: product_dto.dfy ===
/** The product snapshot used to price an order (src/Core/Domain/Products/Dtos/ProductDto.cs). */
module ProductDtos {
  import opened Common

  /** `ProductType` is not part of this model; a category is carried as its enum code. */
  type Category = int

  /** Every field may be null except the value-typed ones. */
  datatype ProductDto = ProductDto(
    id: Option<string>,
    name: Option<string>,
    description: Option<string>,
    category: Category,
    price: real,
    isActive: bool)

  /** `char.IsWhiteSpace`: the Unicode space, line and paragraph separators, the control
      characters U+0009 to U+000D, and U+0085. */
  predicate IsWhiteSpace(c: char) {
    var n := c as int;
    || (0x09 <= n <= 0x0D) || n == 0x20 || n == 0x85 || n == 0xA0 || n == 0x1680
    || (0x2000 <= n <= 0x200A) || n == 0x2028 || n == 0x2029 || n == 0x202F
    || n == 0x205F || n == 0x3000
  }

  /** The scan of `string.IsNullOrWhiteSpace` over a non-null string: it stops at the first
      character that is not white space. */
  function AllWhiteSpace(t: string): (r: bool)
    ensures r <==> forall i :: 0 <= i < |t| ==> IsWhiteSpace(t[i])
  {
    |t| == 0 || (IsWhiteSpace(t[0]) && AllWhiteSpace(t[1..]))
  }

  /** `string.IsNullOrWhiteSpace`: null, or every character white space (so also empty). */
  predicate IsNullOrWhiteSpace(s: Option<string>)
    ensures IsNullOrWhiteSpace(s) <==> s.None? || forall i :: 0 <= i < |s.value| ==> IsWhiteSpace(s.value[i])
  {
    s.None? || AllWhiteSpace(s.value)
  }

  /** The six-argument constructor: the id is stored only when it holds a character that is
      not white space; the other five values are copied without any check. */
  function NewProductDto(name: string, description: string, category: Category, price: real,
                         isActive: bool, id: Option<string>): (d: ProductDto)
    ensures d.id.Some? <==> id.Some? && exists i :: 0 <= i < |id.value| && !IsWhiteSpace(id.value[i])
    ensures d.id.Some? ==> d.id == id
    ensures d.name == Some(name) && d.description == Some(description)
    ensures d.category == category && d.price == price && d.isActive == isActive
  {
    var unset := ProductDto(None, Some(name), Some(description), category, price, isActive);
    if !IsNullOrWhiteSpace(id) then unset.(id := id) else unset
  }

  /** The five-argument constructor used for JSON: the id is never set. */
  function NewProductDtoFromJson(name: string, description: string, category: Category,
                                 price: real, isActive: bool): (d: ProductDto)
    ensures d.id.None?
    ensures d.name == Some(name) && d.description == Some(description)
    ensures d.category == category && d.price == price && d.isActive == isActive
  {
    ProductDto(None, Some(name), Some(description), category, price, isActive)
  }

  /** The parameterless constructor: every field at its default. */
  function EmptyProductDto(): (d: ProductDto)
    ensures d.id.None? && d.name.None? && d.description.None?
    ensures d.category == 0 && d.price == 0.0 && !d.isActive
  {
    ProductDto(None, None, None, 0, 0.0, false)
  }

  /** The JSON constructor is the six-argument one given a blank id. */
  lemma JsonConstructorIsBlankId(name: string, description: string, category: Category,
                                 price: real, isActive: bool)
    ensures NewProductDtoFromJson(name, description, category, price, isActive)
         == NewProductDto(name, description, category, price, isActive, Some(""))
         == NewProductDto(name, description, category, price, isActive, None)
  {
  }

  /** No constructor checks the price, so a snapshot may carry a price of zero or below. */
  lemma NoPriceCheck(name: string, description: string, category: Category, price: real,
                     isActive: bool, id: Option<string>)
    requires price <= 0.0
    ensures NewProductDto(name, description, category, price, isActive, id).price == price
    ensures NewProductDtoFromJson(name, description, category, price, isActive).price == price
  {
  }
}
